=== FILE: README.md ===
# URL shortener: key allocation, store and configuration in Dafny

A model of the core of a small Go URL-shortening service and proofs about
it. The model covers:

- **Short keys.** `GenerateShortKey` hashes a fresh UUID with SHA-256. It
  keeps the first 8 bytes of the digest and writes them in unpadded URL-safe
  base64, as defined in section 5 of RFC 4648. That gives an 11-character
  key. The digest is an input of the model; UUID and SHA-256 are not
  modelled. The module `Base64Url` is the encoder, with its inverse (a
  canonical decoder) and a round trip in both directions.
- **The store.** This is the SQLite repository's `urls` table. Its
  `original_url` and `short_key` columns are both `UNIQUE`. It has three
  queries: look a key up by URL, insert a pair, and look a URL up by key.
  The table is a sequence of rows in rowid order, and the two `UNIQUE`
  constraints are the invariant `Repo.Valid`. A driver or I/O failure is a
  `fault` parameter of each query.
- **Key allocation.** `URLService.CreateShortURL` has a fast path that
  returns the stored key. Otherwise a loop of at most
  `MaxAttemptsCreateKey` attempts generates a key and inserts it. A
  uniqueness failure is retried, and any other error is returned. The
  random generator is a sequence of digests, one per attempt.
  `Allocation.LoopSpec` is a declarative description of the loop's outcome
  with a determinism lemma. Two implementations are proved against it:
  - the service's `while` loop (`Service.CreateShortURL`);
  - the main.go loop with the nil dereference removed (`App.AttemptsFixed`,
    proved in `App.AttemptsFixedMeetsSpec`). The loop as written equals it
    whenever every `LastInsertId()` is positive (`App.AttemptsAgree`).
- **Races.** Another writer may insert between the fast-path lookup and the
  inserts. The model uses two snapshots of the table: `seen`, which the
  lookup reads, and `store`, which the inserts write. Rows are never deleted,
  so `seen` is a prefix of `store`.
- **Configuration.** config/config.go reads each variable from the
  environment, with a default when it is unset or empty. `ENV` falls back to
  `PROD`. Integers go through `strconv.Atoi` with the error dropped, which
  the model writes out: digits are scanned left to right, a syntax error
  gives 0, and an out-of-range value gives the 64-bit bound of its sign.

Modules: `Wrappers` (Option/Result), `Base64Url`, `Shortener`
(pkg/utils/shortener.go), `Repo` (internal/repositories/url_repo.go),
`Allocation` (the loop's specification), `Service`
(internal/services/url_service.go), `App` (main.go) and `Config`
(config/config.go).

The guard at url_repo.go:84, `err != nil || err != sql.ErrNoRows`, holds
for every value because `sql.ErrNoRows` is non-nil, so `GetOriginalURL`
always returns `""` (`Repo.ResolveGuard`, `Repo.GetOriginalURL`).

## Model

| member | source | states |
|---|---|---|
| Base64Url.Value | pkg/utils/shortener.go:13 | a character has a 6-bit value exactly when it is in the URL-safe alphabet (`A-Z a-z 0-9 - _`), and that value maps back to the character |
| Base64Url.Encode | pkg/utils/shortener.go:13 | unpadded output of length 4⌊n/3⌋ plus 0, 2 or 3 characters for a remainder of 0, 1 or 2 bytes, using only URL-safe characters |
| Base64Url.DecodeEncode | pkg/utils/shortener.go:13 | decoding the encoding of any byte string gives the bytes back |
| Base64Url.EncodeDecode | pkg/utils/shortener.go:13 | every string the canonical decoder accepts is the encoding of what it decodes to |
| Base64Url.EncodeInjective | pkg/utils/shortener.go:13 | two byte strings have the same encoding exactly when they are equal |
| Base64Url.FinalCharZeroFilled | pkg/utils/shortener.go:13 | in the last character of a partial quantum the bits beyond the data are zero (low 4 bits for one byte, low 2 for two) |
| Shortener.GenerateShortKey | pkg/utils/shortener.go:10-14 | every key has 11 characters, all from the URL-safe alphabet |
| Shortener.KeyDecodes | pkg/utils/shortener.go:12-13 | decoding a key gives back the first 8 bytes of the digest |
| Shortener.KeyIgnoresDigestTail | pkg/utils/shortener.go:13 | digest bytes 8 to 31 never influence the key |
| Shortener.KeyInjectiveOnPrefix | pkg/utils/shortener.go:13 | two digests give the same key exactly when their first 8 bytes agree |
| Shortener.KeyHasNoPaddingOrStandardSymbols | pkg/utils/shortener.go:13 | a key contains no `=`, `+` or `/` |
| Shortener.KeyLastCharZeroFilled | pkg/utils/shortener.go:13 | the eleventh character's value is a multiple of 4: it carries only 4 data bits |
| Repo.RowsAgree | internal/repositories/url_repo.go:41-46 | under the two `UNIQUE` constraints a row is determined by either of its columns |
| Repo.FindByUrl | internal/repositories/url_repo.go:58 | finds a row with the URL when one exists, and finds nothing only when no row has it |
| Repo.FindByKey | internal/repositories/url_repo.go:82 | finds a row with the key when one exists, and finds nothing only when no row has it |
| Repo.SelectKeyByUrl | internal/repositories/url_repo.go:58 | `QueryRow.Scan` by URL: no error exactly when there is no fault and the URL is stored, and then the value is that row's key; on error the value stays `""`; a missing URL gives `sql.ErrNoRows` |
| Repo.SelectUrlByKey | internal/repositories/url_repo.go:82 | the same for the URL of a key |
| Repo.GetShortKeyByURL | internal/repositories/url_repo.go:55-66 | a fault is returned as `("", err)`; otherwise there is no error, a stored URL yields its row's key and a missing one yields `""` |
| Repo.GetShortKeyByURLFindsRow | internal/repositories/url_repo.go:55-66 | in a valid table the lookup returns exactly the key stored with the URL |
| Repo.ResolveGuard | internal/repositories/url_repo.go:84 | the test "`err != nil` or `err != sql.ErrNoRows`" holds for nil, for `sql.ErrNoRows` and for every other error |
| Repo.GetOriginalURL | internal/repositories/url_repo.go:79-90 | as written: the value is always `""`; there is no error exactly when there is no fault and the key is stored; a missing key gives `sql.ErrNoRows`; a fault gives its error |
| Repo.GetOriginalURLFixed | internal/repositories/url_repo.go:79-90 | with the guard corrected: a fault gives `("", err)`; otherwise there is no error, a stored key yields its row's URL and a missing one yields `""` |
| Repo.GetOriginalURLFixedFindsRow | internal/repositories/url_repo.go:79-90 | in a valid table the corrected lookup returns exactly the URL stored with the key |
| Repo.GetOriginalURLLosesStoredUrl | internal/repositories/url_repo.go:84-89 | for a stored pair the lookup as written answers `("", nil)` where the corrected one answers the URL |
| Repo.CreateShortURL | internal/repositories/url_repo.go:68-77 | the insert succeeds exactly when there is no fault and neither column collides; success appends the pair and failure changes nothing; the violated constraint is named; a valid table stays valid |
| Repo.InsertThenLookup | internal/repositories/url_repo.go:55-90 | after a successful insert into a valid table, both lookups find the new pair |
| Repo.SecondInsertForUrlFails | internal/repositories/url_repo.go:43 | inserting a second key for a stored URL always fails on the `original_url` constraint |
| Allocation.FastPathStillStored | internal/services/url_service.go:22-26 | a key the fast path returns from an earlier snapshot is still the URL's key in the current valid table, and it resolves back to the URL under the corrected lookup `Repo.GetOriginalURLFixed` |
| Allocation.LoopSpecDeterministic | internal/services/url_service.go:28-44 | the loop's outcome (attempt count, result and table) is determined by its inputs |
| Allocation.LoopSpecStep | internal/services/url_service.go:37-39 | an attempt refused on a uniqueness constraint moves the loop on to the next candidate with the table unchanged |
| Allocation.LostRaceExhausts | internal/services/url_service.go:28-44 | when the URL is already stored and no insert faults, every attempt is refused, and the loop ends exhausted after all attempts with the table unchanged |
| Allocation.LoopSpecOutcome | internal/services/url_service.go:31-35 | a successful loop leaves a valid table in which the 11-character key and the URL find each other; a failed loop leaves the table unchanged |
| Service.CreateShortURL | internal/services/url_service.go:20-45 | fast path returns the found key with nothing inserted; otherwise the outcome meets the loop's specification with `for range n` running max(n, 0) times; a lookup failure is swallowed; a surfaced error is the last insert's fault; a lost race ends exhausted; the table stays valid and a returned key resolves to the URL under the corrected lookup `Repo.GetOriginalURLFixed` |
| Service.GetOriginalURL | internal/services/url_service.go:47-49 | passes the repository's answer through: the value is always `""`; no error exactly when there is no fault and the key is stored; a missing key gives `sql.ErrNoRows`; a driver fault comes back unchanged |
| Service.RaceSafeAttempt | internal/services/url_service.go:31-41 | the corrected attempt: on an `original_url` conflict the stored key is read again and returned; it retries only on a real collision, and a returned key resolves to the URL under the corrected lookup `Repo.GetOriginalURLFixed` |
| Service.CreateShortURLRaceSafe | internal/services/url_service.go:20-45 | the corrected service: when the URL was stored after the lookup, the first attempt returns the winner's key with the table unchanged; exhaustion means every attempt collided |
| App.GenerateShortKeyAgrees | main.go:65-69 | the copy of `generateShortKey` in main.go is the one in pkg/utils |
| App.FastPathAgrees | main.go:72-78 | the direct `QueryRow.Scan` fast path decides, and answers, exactly as the repository's `GetShortKeyByURL` |
| App.Attempts | main.go:80-98 | the loop as written runs at most `n` attempts; a crash happens only after an insert that succeeded with `LastInsertId()` not positive, with the row already stored |
| App.AttemptsReturns | main.go:80-96 | a success of the loop as written comes from an insert with no fault and a positive `LastInsertId()`, returns that attempt's candidate and appends exactly its row; a returned error leaves the table unchanged |
| App.RetryReturns | main.go:91-92 | after a uniqueness refusal the rest of the loop keeps those promises, one attempt later |
| App.CreateShortURL | main.go:71-99 | fast path as in the service; at most 5 attempts; a crash leaves the new row stored |
| App.AttemptsFixed | main.go:80-98 | without the nil dereference the loop never crashes and runs at most `n` attempts |
| App.AttemptsFixedMeetsSpec | main.go:80-98 | the corrected loop meets the same loop specification as the service's loop |
| App.FixedRetryMeetsSpec | main.go:91-92 | after a uniqueness refusal the rest of the corrected loop meets the specification one attempt later |
| App.FixedRetryUnfolds | main.go:91-92 | a uniqueness refusal in main.go is a retry in the sense of the specification, and adds one attempt to the rest of the loop |
| App.AttemptsAgree | main.go:80-98 | with every `LastInsertId()` positive the loop as written equals the corrected loop |
| App.RetryStepsAgree | main.go:91-92 | an attempt refused on a uniqueness constraint continues both loops in step |
| App.FinalStepsAgree | main.go:84-95 | an attempt that ends the loop ends both loops the same way when `LastInsertId()` is positive |
| App.CreateShortURLFixed | main.go:71-99 | the corrected handler never crashes, is the service's algorithm with 5 attempts, keeps the table valid, and a returned key resolves to the URL under the corrected lookup `Repo.GetOriginalURLFixed` |
| App.AsWrittenAgreesWhenIdsPositive | main.go:84-89 | when `LastInsertId()` is always positive the handler as written and the corrected one give the same outcome |
| App.NilErrorDereference | main.go:84-91 | an insert into an empty table that succeeds while `LastInsertId()` reads 0 reaches `errInsert.Error()` on a nil error at the first attempt, with the row stored |
| Config.IsValidEnv | config/config.go:74-76 | true exactly for "DEV" and "PROD" |
| Config.GetEnvWithDefault | config/config.go:58-63 | the variable's value when it is set and non-empty, and the default otherwise; the result is empty only when both are |
| Config.ScanDigits | config/config.go:67 | `ParseUint`'s digit loop: the result fits in 64 bits; a syntax error gives 0 and a range error gives the maximum |
| Config.ParseUint | config/config.go:67 | the same bounds for `strconv.ParseUint(s, 10, 64)` |
| Config.Atoi | config/config.go:67 | the result fits in 64 bits; a syntax error gives 0 and a range error gives `MaxInt64` or `MinInt64` |
| Config.ScanDigitsValue | config/config.go:67 | on a digit string whose value fits, the loop returns that value without error |
| Config.ScanDigitsSound | config/config.go:67 | whatever the loop returns without error is the value of an all-digit string |
| Config.ScanDigitsOverflow | config/config.go:67 | a digit run too large for 64 bits is a range error whatever characters follow it |
| Config.AtoiAccepts | config/config.go:67 | `Atoi` succeeds exactly on an optional sign followed by digits whose value is in the 64-bit range, and then returns that value |
| Config.AtoiOverflowBeforeJunk | config/config.go:67 | an over-long number followed by junk parses to the bound of its sign, not to 0 |
| Config.DecimalDigits | config/config.go:67 | `Itoa`'s digit string is non-empty and all digits |
| Config.AtoiItoa | config/config.go:67 | `Atoi(Itoa(v))` returns every 64-bit `v` without error |
| Config.GetEnvInt | config/config.go:65-72 | unset or empty gives the default; a set value always fits in 64 bits; a well-formed decimal in range (`5`, `+5`, `007`) gives the number it spells, for every key; a value that does not start like a number (after an optional sign) gives 0 rather than the default |
| Config.LoadConfig | config/config.go:30-56 | `ENV` is always `DEV` or `PROD`, kept when valid and `PROD` otherwise; every string field is non-empty and is the variable or its default; each integer is its default when unset, and always fits in 64 bits |
| Config.DefaultsWhenUnset | config/config.go:43-55 | an empty environment gives sqlite, `file:urls.db?_fk=1`, PROD, localhost, 5432, postgres, postgres, shortener, 20, 10, 5 |
| Config.MaxAttemptsFromEnvironment | config/config.go:54 | a `MAX_ATTEMPTS_CREATE_KEY` that is an optional sign and digits (any spelling, such as `+5` or `007`) whose value fits in 64 bits gives exactly that value, not the default |
| Config.UnparsableMaxAttemptsIsZero | config/config.go:54 | a `MAX_ATTEMPTS_CREATE_KEY` that does not start with a digit (after an optional sign) gives 0, not the default 5 (with a count of 0, `Service.CreateShortURL`'s own contract says it runs no attempt and reports exhaustion) |

## Left out

- HTTP handlers, routing, JSON, the server's start-up wiring (`NewApp`, `NewSQLiteRepo`, `sql.Open`, the pool sizes) and `Close`: these are plumbing around the core, not part of it.
- The DDL of `Migrate` and `NewApp`, including the duplicate index statements: only its effect is modelled, as the `UNIQUE` invariant `Repo.Valid`.
- UUID generation and SHA-256: the digest is an input, so key collisions are whatever the input says, not a probability.
- Logging (`log.Printf`), `gotenv.Load` and the `log.Fatalf` when it fails: configuration starts from the environment as it is after `.env` has been applied.
- Concurrency in general: the only interleaving modelled is another writer's insert between the fast-path lookup and the inserts, as two snapshots of the table.
- Service.CreateShortURL: the test `strings.Contains(err.Error(), "UNIQUE constraint failed")` is modelled as the error's kind, `UniqueViolation`, not as text matching. A driver fault whose message happens to contain that phrase is not modelled as retried.
- Repo.CreateShortURL: when both columns collide, the error names `original_url`. Which constraint SQLite reports first is not modelled. The program's two callers treat the two alike, but the corrected `Service.RaceSafeAttempt` branches on the reported column: `Service.CreateShortURLRaceSafe` returns the winner's key on the first attempt only because `original_url` is the column reported when both collide.
- App.CreateShortURL: the message case of the exhaustion error ("Failed" in main.go, "failed" in the service) is not modelled; both are `Exhausted`.
- App.Attempts: `LastInsertId()`'s own error is dropped by the code; the model reads the value it leaves, so a failing call is an entry of 0 in `insertIds`.
- Config.Atoi: assumes Go's `int` is 64 bits wide. The fast path `Atoi` takes for strings shorter than 19 characters is not modelled separately, because it gives the same results as `ParseInt`.
- Config.UnparsableMaxAttemptsIsZero: stated only for values that do not start with a digit. A value like `5x` also gives 0 (`Config.AtoiAccepts` and `Config.Atoi`), but a digit run that overflows before the junk gives the bound instead (`Config.AtoiOverflowBeforeJunk`).
- Context cancellation and timeouts of database calls: these are covered by the `fault` parameters like any other driver error.

## Findings

| source | as written | input that shows it | evidently intended | confidence | as-written member | corrected member |
|---|---|---|---|---|---|---|
| internal/repositories/url_repo.go:84 | "`err != nil` or `err != sql.ErrNoRows`" is true for every `err`, so the function always returns `""` | table holding (`https://example.com/a`, `K1`), lookup of `K1`: returns `("", nil)` | `err != nil && err != sql.ErrNoRows`, as in `GetShortKeyByURL`: return the stored URL | high (not executed) | Repo.GetOriginalURLLosesStoredUrl | Repo.GetOriginalURLFixed |
| main.go:84-91 | after a successful insert with `LastInsertId() <= 0`, control falls through to `errInsert.Error()` with `errInsert == nil` | empty table, first insert succeeds, `LastInsertId()` reads 0: nil dereference on attempt 1, row already stored | an insert without error has stored the row, so return its key | medium (not executed; SQLite normally reports a positive rowid, but the error of `LastInsertId` is dropped) | App.NilErrorDereference | App.CreateShortURLFixed |
| internal/services/url_service.go:37-39 | a refusal on the `original_url` constraint is retried like a key collision | URL inserted by another writer after the fast-path lookup, no faults: every attempt is refused and the call ends with "failed to generate unique short key" | on an `original_url` conflict, return the key already stored for the URL | medium (not executed) | Allocation.LostRaceExhausts | Service.CreateShortURLRaceSafe |

=== FILE: allocation.dfy ===
/** What a bounded collision-retry loop computes, stated once and shared by
    both allocation procedures of the repository: `URLService.CreateShortURL`
    (internal/services/url_service.go) and `App.createShortURL` (main.go).

    Every failed insert leaves the table as it was, so all attempts of one
    call see the same table `store`. Attempt `j` inserts the key made from
    `digests[j]`, and `faults[j]` says whether the database call itself
    failed. The loop stops at the first attempt that is not a uniqueness
    failure, or after `n` of them. */
module Allocation {
  import opened Wrappers
  import opened Repo
  import opened Shortener

  /** A store error surfaced unchanged, or running out of attempts. */
  datatype ServiceError = StoreError(cause: DbError) | Exhausted

  /** The idempotent fast path of both procedures: the lookup reported no
      error and found a non-empty key. */
  predicate TakesFastPath(l: Lookup)
  {
    l.err.None? && l.value != ""
  }

  /** A lookup hit on the earlier snapshot is still there, with the same key
      and URL, in the later one. */
  lemma FastPathStillStored(seen: Table, store: Table, url: string, fault: Option<string>)
    requires Valid(store) && seen.rows <= store.rows
    requires TakesFastPath(GetShortKeyByURL(seen, url, fault))
    ensures var key := GetShortKeyByURL(seen, url, fault).value;
            && GetShortKeyByURL(store, url, None) == Lookup(key, None)
            && GetOriginalURLFixed(store, key, None) == Lookup(url, None)
  {
    var key := GetShortKeyByURL(seen, url, fault).value;
    assert Row(url, key) in seen.rows;
    assert Row(url, key) in store.rows by {
      var i :| 0 <= i < |seen.rows| && seen.rows[i] == Row(url, key);
      assert store.rows[i] == seen.rows[i];
    }
    GetShortKeyByURLFindsRow(store, url, key);
    GetOriginalURLFixedFindsRow(store, url, key);
  }

  /** Attempt `j`'s insert was turned away by a `UNIQUE` constraint, so the
      loop goes on with a fresh candidate. */
  ghost predicate Retried(store: Table, url: string, digest: Digest, fault: Option<string>)
  {
    fault.None? && Collides(store, url, GenerateShortKey(digest))
  }

  /** `attempts` inserts were made, and `r` and `after` are what a loop of
      at most `n` attempts returns. */
  ghost predicate LoopSpec(store: Table, url: string, n: nat, digests: seq<Digest>, faults: seq<Option<string>>,
                           attempts: nat, r: Result<string, ServiceError>, after: Table)
  {
    && n <= |digests| && n <= |faults|
    && attempts <= n
    && (forall j :: 0 <= j < attempts - 1 ==> Retried(store, url, digests[j], faults[j]))
    && match r
       case Success(key) =>
         && 1 <= attempts
         && faults[attempts - 1].None?
         && key == GenerateShortKey(digests[attempts - 1])
         && !Collides(store, url, key)
         && after == Table(store.rows + [Row(url, key)])
       case Failure(StoreError(e)) =>
         && 1 <= attempts
         && faults[attempts - 1].Some?
         && e == Other(faults[attempts - 1].value)
         && after == store
       case Failure(Exhausted) =>
         && attempts == n
         && (forall j :: 0 <= j < n ==> Retried(store, url, digests[j], faults[j]))
         && after == store
  }

  /** The specification leaves no freedom: at most one outcome meets it. */
  lemma LoopSpecDeterministic(store: Table, url: string, n: nat, digests: seq<Digest>, faults: seq<Option<string>>,
                              a1: nat, r1: Result<string, ServiceError>, s1: Table,
                              a2: nat, r2: Result<string, ServiceError>, s2: Table)
    requires LoopSpec(store, url, n, digests, faults, a1, r1, s1)
    requires LoopSpec(store, url, n, digests, faults, a2, r2, s2)
    ensures a1 == a2 && r1 == r2 && s1 == s2
  {
    AttemptsDetermined(store, url, n, digests, faults, a1, r1, s1, a2, r2, s2);
    AttemptsDetermined(store, url, n, digests, faults, a2, r2, s2, a1, r1, s1);
  }

  /** The attempt that ends the loop is the first that is not retried. */
  lemma AttemptsDetermined(store: Table, url: string, n: nat, digests: seq<Digest>, faults: seq<Option<string>>,
                           a1: nat, r1: Result<string, ServiceError>, s1: Table,
                           a2: nat, r2: Result<string, ServiceError>, s2: Table)
    requires LoopSpec(store, url, n, digests, faults, a1, r1, s1)
    requires LoopSpec(store, url, n, digests, faults, a2, r2, s2)
    requires a1 <= a2
    ensures a1 == a2 && r1 == r2 && s1 == s2
  {
    if r1.Success? || (r1.Failure? && r1.error.StoreError?) {
      assert !Retried(store, url, digests[a1 - 1], faults[a1 - 1]);
    }
  }

  /** A retried first attempt followed by a loop of `n - 1` attempts over the
      remaining candidates is a loop of `n` attempts. */
  lemma LoopSpecStep(store: Table, url: string, n: nat, digests: seq<Digest>, faults: seq<Option<string>>,
                     attempts: nat, r: Result<string, ServiceError>, after: Table)
    requires 1 <= n <= |digests| && n <= |faults|
    requires Retried(store, url, digests[0], faults[0])
    requires LoopSpec(store, url, n - 1, digests[1..], faults[1..], attempts, r, after)
    ensures LoopSpec(store, url, n, digests, faults, attempts + 1, r, after)
  {
    forall j | 0 <= j < attempts
      ensures Retried(store, url, digests[j], faults[j])
    {
      if j > 0 {
        assert digests[j] == digests[1..][j - 1] && faults[j] == faults[1..][j - 1];
      }
    }
    if r == Failure(Exhausted) {
      forall j | 0 <= j < n
        ensures Retried(store, url, digests[j], faults[j])
      {
        if j > 0 {
          assert digests[j] == digests[1..][j - 1] && faults[j] == faults[1..][j - 1];
        }
      }
    } else {
      assert digests[attempts] == digests[1..][attempts - 1] && faults[attempts] == faults[1..][attempts - 1];
    }
  }

  /** An attempt that is not retried ends a loop of `n >= 1` attempts at once. */
  lemma LoopSpecStop(store: Table, url: string, n: nat, digests: seq<Digest>, faults: seq<Option<string>>)
    requires 1 <= n <= |digests| && n <= |faults|
    requires !Retried(store, url, digests[0], faults[0])
    ensures faults[0].Some? ==>
      LoopSpec(store, url, n, digests, faults, 1, Failure(StoreError(Other(faults[0].value))), store)
    ensures faults[0].None? ==>
      var key := GenerateShortKey(digests[0]);
      LoopSpec(store, url, n, digests, faults, 1, Success(key), Table(store.rows + [Row(url, key)]))
  {
  }

  /** Lost race: when the URL is already stored but the fast path missed it,
      each insert fails on the `original_url` constraint, is retried like a
      key collision, and the call ends in exhaustion, never with the key
      already stored for the URL. */
  lemma LostRaceExhausts(store: Table, url: string, n: nat, digests: seq<Digest>, faults: seq<Option<string>>,
                         attempts: nat, r: Result<string, ServiceError>, after: Table)
    requires HasUrl(store, url)
    requires n <= |faults| && forall j :: 0 <= j < n ==> faults[j].None?
    requires LoopSpec(store, url, n, digests, faults, attempts, r, after)
    ensures r == Failure(Exhausted) && attempts == n && after == store
  {
    if r.Success? {
      assert Collides(store, url, r.value);
    }
  }

  /** A successful loop leaves a valid table in which the new pair is found
      from either side; a failed one leaves the table untouched. */
  lemma LoopSpecOutcome(store: Table, url: string, n: nat, digests: seq<Digest>, faults: seq<Option<string>>,
                        attempts: nat, r: Result<string, ServiceError>, after: Table)
    requires Valid(store)
    requires LoopSpec(store, url, n, digests, faults, attempts, r, after)
    ensures Valid(after)
    ensures r.Failure? ==> after == store
    ensures r.Success? ==> |r.value| == KeyLength
    ensures r.Success? ==> GetShortKeyByURL(after, url, None) == Lookup(r.value, None)
    ensures r.Success? ==> GetOriginalURLFixed(after, r.value, None) == Lookup(url, None)
  {
    if r.Success? {
      var x := Repo.CreateShortURL(store, url, r.value, None);
      assert x.after == after;
      InsertThenLookup(store, url, r.value);
    }
  }
}

=== FILE: app.dfy ===
/** The single-file handler in main.go: `generateShortKey` and
    `App.createShortURL`, which query and insert through the database handle
    directly, try at most five candidates, and also check `LastInsertId()`.
    `insertIds[j]` is the value `LastInsertId()` gives after attempt `j`
    (its error is discarded, so a failing call reads as 0). */
module App {
  import opened Wrappers
  import opened Base64Url
  import opened Repo
  import opened Shortener
  import opened Allocation

  /** `MAX_ATTEMPTS_CREATE_UNIQ_KEY`. */
  const MaxAttemptsCreateUniqKey: nat := 5

  /** What `createShortURL` does: return a Go result, or crash on
      `errInsert.Error()` when `errInsert` is nil. */
  datatype Outcome =
    | Returned(result: Result<string, ServiceError>, after: Table, attempts: nat)
    | Panicked(after: Table, attempts: nat)

  /** `generateShortKey`, written out again in main.go. */
  function GenerateShortKey(digest: Digest): string
  {
    Encode(digest[..8])
  }

  /** It is the key generator of pkg/utils/shortener.go. */
  lemma GenerateShortKeyAgrees(digest: Digest)
    ensures GenerateShortKey(digest) == Shortener.GenerateShortKey(digest)
  {
  }

  /** The direct query at main.go decides the fast path exactly as the
      repository's `GetShortKeyByURL` does. */
  lemma FastPathAgrees(t: Table, url: string, fault: Option<string>)
    ensures TakesFastPath(SelectKeyByUrl(t, url, fault)) <==> TakesFastPath(GetShortKeyByURL(t, url, fault))
    ensures TakesFastPath(SelectKeyByUrl(t, url, fault)) ==>
      SelectKeyByUrl(t, url, fault).value == GetShortKeyByURL(t, url, fault).value
  {
  }

  /** The remaining `n` iterations of the loop, as written. */
  function Attempts(store: Table, url: string, n: nat, digests: seq<Digest>, faults: seq<Option<string>>,
                    insertIds: seq<int>): (o: Outcome)
    requires n <= |digests| && n <= |faults| && n <= |insertIds|
    ensures o.attempts <= n
    ensures o.Panicked? ==>
      && 1 <= o.attempts
      && faults[o.attempts - 1].None?
      && insertIds[o.attempts - 1] <= 0
      && o.after == Table(store.rows + [Row(url, Shortener.GenerateShortKey(digests[o.attempts - 1]))])
    decreases n
  {
    if n == 0 then Returned(Failure(Exhausted), store, 0)
    else
      var shortKey := GenerateShortKey(digests[0]);
      var x := Repo.CreateShortURL(store, url, shortKey, faults[0]);
      if x.err.None? && insertIds[0] > 0 then Returned(Success(shortKey), x.after, 1)
      else if x.err.None? then Panicked(x.after, 1)
      else if x.err.value.UniqueViolation? then
        match Attempts(store, url, n - 1, digests[1..], faults[1..], insertIds[1..])
        case Returned(r, after, k) => Returned(r, after, k + 1)
        case Panicked(after, k) =>
          assert digests[k] == digests[1..][k - 1] && faults[k] == faults[1..][k - 1];
          assert insertIds[k] == insertIds[1..][k - 1];
          Panicked(after, k + 1)
      else Returned(Failure(StoreError(x.err.value)), store, 1)
  }

  /** Success of the loop as written needs both a nil insert error and a
      positive `LastInsertId()`, and returns the candidate just inserted;
      a returned error leaves the table as it was. */
  lemma {:induction false} AttemptsReturns(store: Table, url: string, n: nat, digests: seq<Digest>,
                                           faults: seq<Option<string>>, insertIds: seq<int>)
    requires n <= |digests| && n <= |faults| && n <= |insertIds|
    ensures ReturnsAsInserted(store, url, digests, faults, insertIds, Attempts(store, url, n, digests, faults, insertIds))
    decreases n, 1
  {
    if n > 0 {
      var x := Repo.CreateShortURL(store, url, GenerateShortKey(digests[0]), faults[0]);
      if x.err.Some? && x.err.value.UniqueViolation? {
        RetryReturns(store, url, n, digests, faults, insertIds);
      }
    }
  }

  /** What a returned outcome of the loop as written promises. */
  ghost predicate ReturnsAsInserted(store: Table, url: string, digests: seq<Digest>,
                                    faults: seq<Option<string>>, insertIds: seq<int>, o: Outcome)
  {
    && (o.Returned? && o.result.Success? ==>
          && 1 <= o.attempts <= |digests| && o.attempts <= |faults| && o.attempts <= |insertIds|
          && faults[o.attempts - 1].None?
          && insertIds[o.attempts - 1] > 0
          && o.result.value == Shortener.GenerateShortKey(digests[o.attempts - 1])
          && o.after == Table(store.rows + [Row(url, o.result.value)]))
    && (o.Returned? && o.result.Failure? ==> o.after == store)
  }

  /** A retried attempt: what the rest of the loop promises, shifted by one. */
  lemma {:induction false} RetryReturns(store: Table, url: string, n: nat, digests: seq<Digest>,
                                        faults: seq<Option<string>>, insertIds: seq<int>)
    requires 1 <= n <= |digests| && n <= |faults| && n <= |insertIds|
    requires var x := Repo.CreateShortURL(store, url, GenerateShortKey(digests[0]), faults[0]);
             x.err.Some? && x.err.value.UniqueViolation?
    ensures ReturnsAsInserted(store, url, digests, faults, insertIds, Attempts(store, url, n, digests, faults, insertIds))
    decreases n, 0
  {
    AttemptsReturns(store, url, n - 1, digests[1..], faults[1..], insertIds[1..]);
    var o := Attempts(store, url, n - 1, digests[1..], faults[1..], insertIds[1..]);
    if o.Returned? && o.result.Success? {
      var k := o.attempts;
      assert digests[k] == digests[1..][k - 1] && faults[k] == faults[1..][k - 1];
      assert insertIds[k] == insertIds[1..][k - 1];
    }
  }

  /** `App.createShortURL` as written. */
  function CreateShortURL(seen: Table, store: Table, url: string, lookupFault: Option<string>,
                          digests: seq<Digest>, faults: seq<Option<string>>, insertIds: seq<int>): (o: Outcome)
    requires seen.rows <= store.rows
    requires MaxAttemptsCreateUniqKey <= |digests| && MaxAttemptsCreateUniqKey <= |faults|
    requires MaxAttemptsCreateUniqKey <= |insertIds|
    ensures TakesFastPath(SelectKeyByUrl(seen, url, lookupFault)) ==>
      o == Returned(Success(SelectKeyByUrl(seen, url, lookupFault).value), store, 0)
    ensures o.attempts <= MaxAttemptsCreateUniqKey
    // The crash: the insert went through (the row is stored) but
    // `LastInsertId()` was not positive, and `errInsert.Error()` is reached.
    ensures o.Panicked? ==>
      && 1 <= o.attempts
      && insertIds[o.attempts - 1] <= 0
      && o.after == Table(store.rows + [Row(url, Shortener.GenerateShortKey(digests[o.attempts - 1]))])
  {
    var existing := SelectKeyByUrl(seen, url, lookupFault);
    if existing.err.None? && existing.value != "" then
      Returned(Success(existing.value), store, 0)
    else
      Attempts(store, url, MaxAttemptsCreateUniqKey, digests, faults, insertIds)
  }

  /** The remaining `n` iterations with the nil dereference removed: an
      insert that reported no error has stored the row, so its key is
      returned whatever `LastInsertId()` says. */
  function AttemptsFixed(store: Table, url: string, n: nat, digests: seq<Digest>,
                         faults: seq<Option<string>>): (o: Outcome)
    requires n <= |digests| && n <= |faults|
    ensures o.Returned? && o.attempts <= n
    decreases n
  {
    if n == 0 then Returned(Failure(Exhausted), store, 0)
    else
      var shortKey := GenerateShortKey(digests[0]);
      var x := Repo.CreateShortURL(store, url, shortKey, faults[0]);
      if x.err.None? then Returned(Success(shortKey), x.after, 1)
      else if x.err.value.UniqueViolation? then
        var o := AttemptsFixed(store, url, n - 1, digests[1..], faults[1..]);
        Returned(o.result, o.after, o.attempts + 1)
      else Returned(Failure(StoreError(x.err.value)), store, 1)
  }

  /** The corrected loop meets the specification of the service's loop:
      `o` is its outcome. */
  lemma {:induction false} AttemptsFixedMeetsSpec(store: Table, url: string, n: nat, digests: seq<Digest>,
                                                  faults: seq<Option<string>>, o: Outcome)
    requires n <= |digests| && n <= |faults|
    requires o == AttemptsFixed(store, url, n, digests, faults)
    ensures o.Returned? && LoopSpec(store, url, n, digests, faults, o.attempts, o.result, o.after)
    decreases n, 1
  {
    if n > 0 {
      var x := Repo.CreateShortURL(store, url, GenerateShortKey(digests[0]), faults[0]);
      GenerateShortKeyAgrees(digests[0]);
      if x.err.Some? && x.err.value.UniqueViolation? {
        FixedRetryUnfolds(store, url, n, digests, faults);
        FixedRetryMeetsSpec(store, url, n, digests, faults, o);
      } else {
        LoopSpecStop(store, url, n, digests, faults);
      }
    }
  }

  /** A retried attempt of the corrected loop: the outcome of the rest,
      one attempt later, meets the specification of the whole loop. */
  lemma {:induction false} FixedRetryMeetsSpec(store: Table, url: string, n: nat, digests: seq<Digest>,
                                               faults: seq<Option<string>>, o: Outcome)
    requires 1 <= n <= |digests| && n <= |faults|
    requires Retried(store, url, digests[0], faults[0])
    requires var rest := AttemptsFixed(store, url, n - 1, digests[1..], faults[1..]);
             o == Returned(rest.result, rest.after, rest.attempts + 1)
    ensures o.Returned? && LoopSpec(store, url, n, digests, faults, o.attempts, o.result, o.after)
    decreases n, 0
  {
    var rest := AttemptsFixed(store, url, n - 1, digests[1..], faults[1..]);
    AttemptsFixedMeetsSpec(store, url, n - 1, digests[1..], faults[1..], rest);
    LoopSpecStep(store, url, n, digests, faults, rest.attempts, rest.result, rest.after);
    assert o.attempts == rest.attempts + 1 && o.result == rest.result && o.after == rest.after;
  }

  /** A retried attempt of the corrected loop is a retry in the sense of
      the specification, and adds one to the rest's attempt count. */
  lemma FixedRetryUnfolds(store: Table, url: string, n: nat, digests: seq<Digest>, faults: seq<Option<string>>)
    requires 1 <= n <= |digests| && n <= |faults|
    requires var x := Repo.CreateShortURL(store, url, GenerateShortKey(digests[0]), faults[0]);
             x.err.Some? && x.err.value.UniqueViolation?
    ensures Retried(store, url, digests[0], faults[0])
    ensures var o := AttemptsFixed(store, url, n - 1, digests[1..], faults[1..]);
            AttemptsFixed(store, url, n, digests, faults) == Returned(o.result, o.after, o.attempts + 1)
  {
    GenerateShortKeyAgrees(digests[0]);
  }

  /** With every `LastInsertId()` positive the loop as written never
      crashes and does what the corrected loop does. */
  lemma {:induction false} AttemptsAgree(store: Table, url: string, n: nat, digests: seq<Digest>,
                                         faults: seq<Option<string>>, insertIds: seq<int>)
    requires n <= |digests| && n <= |faults| && n <= |insertIds|
    requires forall j :: 0 <= j < n ==> insertIds[j] > 0
    ensures Attempts(store, url, n, digests, faults, insertIds) == AttemptsFixed(store, url, n, digests, faults)
    decreases n, 1
  {
    if n > 0 {
      var x := Repo.CreateShortURL(store, url, GenerateShortKey(digests[0]), faults[0]);
      if x.err.Some? && x.err.value.UniqueViolation? {
        RetryStepsAgree(store, url, n, digests, faults, insertIds);
      } else {
        FinalStepsAgree(store, url, n, digests, faults, insertIds);
      }
    }
  }

  /** A retried attempt: both loops go on with the same remaining inputs,
      on which they agree by induction. */
  lemma {:induction false} RetryStepsAgree(store: Table, url: string, n: nat, digests: seq<Digest>,
                                           faults: seq<Option<string>>, insertIds: seq<int>)
    requires 1 <= n <= |digests| && n <= |faults| && n <= |insertIds|
    requires forall j :: 0 <= j < n ==> insertIds[j] > 0
    requires var x := Repo.CreateShortURL(store, url, GenerateShortKey(digests[0]), faults[0]);
             x.err.Some? && x.err.value.UniqueViolation?
    ensures Attempts(store, url, n, digests, faults, insertIds) == AttemptsFixed(store, url, n, digests, faults)
    decreases n, 0
  {
    forall j | 0 <= j < n - 1
      ensures insertIds[1..][j] > 0
    {
      assert insertIds[1..][j] == insertIds[j + 1];
    }
    AttemptsAgree(store, url, n - 1, digests[1..], faults[1..], insertIds[1..]);
  }

  /** An attempt that ends the loop ends both loops the same way when
      `LastInsertId()` is positive. */
  lemma FinalStepsAgree(store: Table, url: string, n: nat, digests: seq<Digest>,
                        faults: seq<Option<string>>, insertIds: seq<int>)
    requires 1 <= n <= |digests| && n <= |faults| && n <= |insertIds|
    requires insertIds[0] > 0
    requires var x := Repo.CreateShortURL(store, url, GenerateShortKey(digests[0]), faults[0]);
             x.err.None? || !x.err.value.UniqueViolation?
    ensures Attempts(store, url, n, digests, faults, insertIds) == AttemptsFixed(store, url, n, digests, faults)
  {
  }

  /** `App.createShortURL` without the crash. It never panics, and it is
      `URLService.CreateShortURL` with `MaxAttemptsCreateKey` fixed at 5. */
  function CreateShortURLFixed(seen: Table, store: Table, url: string, lookupFault: Option<string>,
                               digests: seq<Digest>, faults: seq<Option<string>>): (o: Outcome)
    requires Valid(store) && seen.rows <= store.rows
    requires MaxAttemptsCreateUniqKey <= |digests| && MaxAttemptsCreateUniqKey <= |faults|
    ensures o.Returned?
    ensures TakesFastPath(SelectKeyByUrl(seen, url, lookupFault)) ==>
      o == Returned(Success(SelectKeyByUrl(seen, url, lookupFault).value), store, 0)
    ensures !TakesFastPath(SelectKeyByUrl(seen, url, lookupFault)) ==>
      LoopSpec(store, url, MaxAttemptsCreateUniqKey, digests, faults, o.attempts, o.result, o.after)
    ensures Valid(o.after)
    ensures o.result.Success? ==> GetOriginalURLFixed(o.after, o.result.value, None) == Lookup(url, None)
  {
    var existing := SelectKeyByUrl(seen, url, lookupFault);
    if existing.err.None? && existing.value != "" then
      FastPathAgrees(seen, url, lookupFault);
      FastPathStillStored(seen, store, url, lookupFault);
      Returned(Success(existing.value), store, 0)
    else
      var o := AttemptsFixed(store, url, MaxAttemptsCreateUniqKey, digests, faults);
      AttemptsFixedMeetsSpec(store, url, MaxAttemptsCreateUniqKey, digests, faults, o);
      LoopSpecOutcome(store, url, MaxAttemptsCreateUniqKey, digests, faults, o.attempts, o.result, o.after);
      o
  }

  /** When `LastInsertId()` is always positive the code as written and the
      corrected code give the same outcome. */
  lemma AsWrittenAgreesWhenIdsPositive(seen: Table, store: Table, url: string, lookupFault: Option<string>,
                                       digests: seq<Digest>, faults: seq<Option<string>>, insertIds: seq<int>)
    requires Valid(store) && seen.rows <= store.rows
    requires MaxAttemptsCreateUniqKey <= |digests| && MaxAttemptsCreateUniqKey <= |faults|
    requires MaxAttemptsCreateUniqKey <= |insertIds|
    requires forall j :: 0 <= j < MaxAttemptsCreateUniqKey ==> insertIds[j] > 0
    ensures CreateShortURL(seen, store, url, lookupFault, digests, faults, insertIds)
         == CreateShortURLFixed(seen, store, url, lookupFault, digests, faults)
  {
    AttemptsAgree(store, url, MaxAttemptsCreateUniqKey, digests, faults, insertIds);
  }

  /** A first insert that succeeds while `LastInsertId()` reads 0 crashes
      the handler, with the row already stored. */
  lemma NilErrorDereference()
    ensures var d: Digest := seq(32, _ => 0);
            var o := CreateShortURL(Table([]), Table([]), "https://example.com/a", None,
                                    [d, d, d, d, d], [None, None, None, None, None], [0, 0, 0, 0, 0]);
            o.Panicked? && o.attempts == 1
            && o.after == Table([Row("https://example.com/a", Shortener.GenerateShortKey(d))])
  {
  }
}

=== FILE: base64url.dfy ===
/** Unpadded base64 with the URL- and filename-safe alphabet (section 5 of
    RFC 4648, padding omitted as section 3.2 allows), the encoding
    `base64.RawURLEncoding` performs. */
module Base64Url {
  import opened Wrappers

  type Byte = x: int | 0 <= x < 256
  type Sextet = x: int | 0 <= x < 64

  /** The alphabet of table 2 in section 5 of RFC 4648. */
  function Char(v: Sextet): char
  {
    if v < 26 then ('A' as int + v) as char
    else if v < 52 then ('a' as int + (v - 26)) as char
    else if v < 62 then ('0' as int + (v - 52)) as char
    else if v == 62 then '-'
    else '_'
  }

  predicate IsUrlSafe(c: char)
  {
    ('A' <= c <= 'Z') || ('a' <= c <= 'z') || ('0' <= c <= '9') || c == '-' || c == '_'
  }

  /** The inverse of `Char`: the 6-bit value a character stands for. */
  function Value(c: char): (r: Option<Sextet>)
    ensures r.Some? <==> IsUrlSafe(c)
    ensures r.Some? ==> Char(r.value) == c
  {
    if 'A' <= c <= 'Z' then Some(c as int - 'A' as int)
    else if 'a' <= c <= 'z' then Some(c as int - 'a' as int + 26)
    else if '0' <= c <= '9' then Some(c as int - '0' as int + 52)
    else if c == '-' then Some(62)
    else if c == '_' then Some(63)
    else None
  }

  lemma CharIsUrlSafe(v: Sextet)
    ensures IsUrlSafe(Char(v))
    ensures Value(Char(v)) == Some(v)
  {
  }

  /** Number of characters in the unpadded encoding of `n` bytes: four per
      full quantum, then two for a one-byte and three for a two-byte tail. */
  function EncodedLength(n: nat): nat
  {
    (n / 3) * 4 + (if n % 3 == 0 then 0 else n % 3 + 1)
  }

  /** Section 4 of RFC 4648: 24 input bits become four 6-bit groups. */
  function EncodeQuantum(b0: Byte, b1: Byte, b2: Byte): string
  {
    [Char(b0 / 4), Char((b0 % 4) * 16 + b1 / 16), Char((b1 % 16) * 4 + b2 / 64), Char(b2 % 64)]
  }

  /** A final quantum of 16 bits: three characters, the last one zero-filled
      in its two low bits. */
  function EncodeTail2(b0: Byte, b1: Byte): string
  {
    [Char(b0 / 4), Char((b0 % 4) * 16 + b1 / 16), Char((b1 % 16) * 4)]
  }

  /** A final quantum of 8 bits: two characters, the last one zero-filled in
      its four low bits. */
  function EncodeTail1(b0: Byte): string
  {
    [Char(b0 / 4), Char((b0 % 4) * 16)]
  }

  function Encode(b: seq<Byte>): (s: string)
    ensures |s| == EncodedLength(|b|)
    ensures forall i :: 0 <= i < |s| ==> IsUrlSafe(s[i])
    decreases |b|
  {
    if |b| >= 3 then
      CharIsUrlSafe(b[0] / 4);
      CharIsUrlSafe((b[0] % 4) * 16 + b[1] / 16);
      CharIsUrlSafe((b[1] % 16) * 4 + b[2] / 64);
      CharIsUrlSafe(b[2] % 64);
      EncodeQuantum(b[0], b[1], b[2]) + Encode(b[3..])
    else if |b| == 2 then
      CharIsUrlSafe(b[0] / 4);
      CharIsUrlSafe((b[0] % 4) * 16 + b[1] / 16);
      CharIsUrlSafe((b[1] % 16) * 4);
      EncodeTail2(b[0], b[1])
    else if |b| == 1 then
      CharIsUrlSafe(b[0] / 4);
      CharIsUrlSafe((b[0] % 4) * 16);
      EncodeTail1(b[0])
    else
      []
  }

  /** Reassembles three bytes from four 6-bit groups. */
  function DecodeQuantum(c0: Sextet, c1: Sextet, c2: Sextet, c3: Sextet): seq<Byte>
  {
    var b0: Byte := c0 * 4 + c1 / 16;
    var b1: Byte := (c1 % 16) * 16 + c2 / 4;
    var b2: Byte := (c2 % 4) * 64 + c3;
    [b0, b1, b2]
  }

  /** Canonical decoding (section 3.5 of RFC 4648): characters outside the
      alphabet, a dangling single character and non-zero fill bits are all
      rejected, so that decoding is the exact inverse of `Encode`. */
  function Decode(s: string): Option<seq<Byte>>
    decreases |s|
  {
    if |s| >= 4 then
      match (Value(s[0]), Value(s[1]), Value(s[2]), Value(s[3]))
      case (Some(c0), Some(c1), Some(c2), Some(c3)) =>
        (match Decode(s[4..])
         case Some(rest) => Some(DecodeQuantum(c0, c1, c2, c3) + rest)
         case None => None)
      case _ => None
    else if |s| == 3 then
      match (Value(s[0]), Value(s[1]), Value(s[2]))
      case (Some(c0), Some(c1), Some(c2)) =>
        if c2 % 4 == 0 then Some(DecodeQuantum(c0, c1, c2, 0)[..2]) else None
      case _ => None
    else if |s| == 2 then
      match (Value(s[0]), Value(s[1]))
      case (Some(c0), Some(c1)) =>
        if c1 % 16 == 0 then Some(DecodeQuantum(c0, c1, 0, 0)[..1]) else None
      case _ => None
    else if |s| == 1 then
      None
    else
      Some([])
  }

  lemma QuantumRoundTrip(b0: Byte, b1: Byte, b2: Byte)
    ensures var c1 := (b0 % 4) * 16 + b1 / 16;
            var c2 := (b1 % 16) * 4 + b2 / 64;
            && (b0 / 4) * 4 + c1 / 16 == b0
            && (c1 % 16) * 16 + c2 / 4 == b1
            && (c2 % 4) * 64 + b2 % 64 == b2
  {
    var c1 := (b0 % 4) * 16 + b1 / 16;
    var c2 := (b1 % 16) * 4 + b2 / 64;
    assert c1 / 16 == b0 % 4 && c1 % 16 == b1 / 16;
    assert c2 / 4 == b1 % 16 && c2 % 4 == b2 / 64;
  }

  lemma QuantumInverse(c0: Sextet, c1: Sextet, c2: Sextet, c3: Sextet)
    ensures var q := DecodeQuantum(c0, c1, c2, c3);
            && q[0] / 4 == c0
            && (q[0] % 4) * 16 + q[1] / 16 == c1
            && (q[1] % 16) * 4 + q[2] / 64 == c2
            && q[2] % 64 == c3
  {
    var q := DecodeQuantum(c0, c1, c2, c3);
    assert q[0] / 4 == c0 && q[0] % 4 == c1 / 16;
    assert q[1] / 16 == c1 % 16 && q[1] % 16 == c2 / 4;
    assert q[2] / 64 == c2 % 4 && q[2] % 64 == c3;
  }

  /** One quantum decodes back to its three bytes. */
  lemma QuantumDecodes(b0: Byte, b1: Byte, b2: Byte)
    ensures var e := EncodeQuantum(b0, b1, b2);
            && Value(e[0]).Some? && Value(e[1]).Some? && Value(e[2]).Some? && Value(e[3]).Some?
            && DecodeQuantum(Value(e[0]).value, Value(e[1]).value, Value(e[2]).value, Value(e[3]).value) == [b0, b1, b2]
  {
    QuantumRoundTrip(b0, b1, b2);
    CharIsUrlSafe(b0 / 4);
    CharIsUrlSafe((b0 % 4) * 16 + b1 / 16);
    CharIsUrlSafe((b1 % 16) * 4 + b2 / 64);
    CharIsUrlSafe(b2 % 64);
  }

  lemma Tail2Decodes(b0: Byte, b1: Byte)
    ensures Decode(EncodeTail2(b0, b1)) == Some([b0, b1])
  {
    QuantumRoundTrip(b0, b1, 0);
    var c0, c1, c2 := b0 / 4, (b0 % 4) * 16 + b1 / 16, (b1 % 16) * 4;
    CharIsUrlSafe(c0);
    CharIsUrlSafe(c1);
    CharIsUrlSafe(c2);
    assert c2 % 4 == 0;
    assert DecodeQuantum(c0, c1, c2, 0)[..2] == [b0, b1];
  }

  lemma Tail1Decodes(b0: Byte)
    ensures Decode(EncodeTail1(b0)) == Some([b0])
  {
    QuantumRoundTrip(b0, 0, 0);
    var c0, c1 := b0 / 4, (b0 % 4) * 16;
    CharIsUrlSafe(c0);
    CharIsUrlSafe(c1);
    var e := EncodeTail1(b0);
    assert |e| == 2 && Value(e[0]) == Some(c0) && Value(e[1]) == Some(c1);
    assert c1 % 16 == 0;
    assert DecodeQuantum(c0, c1, 0, 0)[..1] == [b0];
  }

  /** Decoding a full quantum in front of a decodable string. */
  lemma DecodeCons(e: string, rest: string, q: seq<Byte>, tail: seq<Byte>)
    requires |e| == 4
    requires Value(e[0]).Some? && Value(e[1]).Some? && Value(e[2]).Some? && Value(e[3]).Some?
    requires q == DecodeQuantum(Value(e[0]).value, Value(e[1]).value, Value(e[2]).value, Value(e[3]).value)
    requires Decode(rest) == Some(tail)
    ensures Decode(e + rest) == Some(q + tail)
  {
    var s := e + rest;
    assert s[..4] == e && s[4..] == rest;
    assert s[0] == e[0] && s[1] == e[1] && s[2] == e[2] && s[3] == e[3];
  }

  lemma DecodeEncodeTail2(b: seq<Byte>)
    requires |b| == 2
    ensures Decode(Encode(b)) == Some(b)
  {
    Tail2Decodes(b[0], b[1]);
    assert [b[0], b[1]] == b;
  }

  lemma DecodeEncodeTail1(b: seq<Byte>)
    requires |b| == 1
    ensures Decode(Encode(b)) == Some(b)
  {
    Tail1Decodes(b[0]);
    assert [b[0]] == b;
  }

  /** The encoding of three bytes in front of a string that decodes. */
  lemma DecodeQuantumCons(b0: Byte, b1: Byte, b2: Byte, t: string, rest: seq<Byte>)
    requires Decode(t) == Some(rest)
    ensures Decode(EncodeQuantum(b0, b1, b2) + t) == Some([b0, b1, b2] + rest)
  {
    QuantumDecodes(b0, b1, b2);
    DecodeCons(EncodeQuantum(b0, b1, b2), t, [b0, b1, b2], rest);
  }

  /** Decoding an encoding gives back the bytes. */
  lemma {:induction false} DecodeEncode(b: seq<Byte>)
    ensures Decode(Encode(b)) == Some(b)
    decreases |b|
  {
    if |b| >= 3 {
      DecodeEncode(b[3..]);
      DecodeQuantumCons(b[0], b[1], b[2], Encode(b[3..]), b[3..]);
      EncodeCons([b[0], b[1], b[2]], b[3..]);
      assert b == [b[0], b[1], b[2]] + b[3..];
    } else if |b| == 2 {
      DecodeEncodeTail2(b);
    } else if |b| == 1 {
      DecodeEncodeTail1(b);
    }
  }

  lemma QuantumEncodes(c0: Sextet, c1: Sextet, c2: Sextet, c3: Sextet)
    ensures var q := DecodeQuantum(c0, c1, c2, c3);
            EncodeQuantum(q[0], q[1], q[2]) == [Char(c0), Char(c1), Char(c2), Char(c3)]
  {
    QuantumInverse(c0, c1, c2, c3);
  }

  lemma Tail2Encodes(c0: Sextet, c1: Sextet, c2: Sextet)
    requires c2 % 4 == 0
    ensures var q := DecodeQuantum(c0, c1, c2, 0);
            EncodeTail2(q[0], q[1]) == [Char(c0), Char(c1), Char(c2)]
  {
    QuantumInverse(c0, c1, c2, 0);
  }

  lemma Tail1Encodes(c0: Sextet, c1: Sextet)
    requires c1 % 16 == 0
    ensures var q := DecodeQuantum(c0, c1, 0, 0);
            EncodeTail1(q[0]) == [Char(c0), Char(c1)]
  {
    QuantumInverse(c0, c1, 0, 0);
  }

  /** What a successful decoding of four or more characters consists of. */
  lemma DecodeLong(s: string)
    requires |s| >= 4 && Decode(s).Some?
    ensures Value(s[0]).Some? && Value(s[1]).Some? && Value(s[2]).Some? && Value(s[3]).Some?
    ensures Decode(s[4..]).Some?
    ensures Decode(s).value
         == DecodeQuantum(Value(s[0]).value, Value(s[1]).value, Value(s[2]).value, Value(s[3]).value)
            + Decode(s[4..]).value
  {
  }

  /** Only encodings decode: whatever `Decode` accepts is the encoding of the
      bytes it returns. */
  lemma {:induction false} EncodeDecode(s: string, b: seq<Byte>)
    requires Decode(s) == Some(b)
    ensures Encode(b) == s
    decreases |s|
  {
    if |s| >= 4 {
      DecodeLong(s);
      var e := s[..4];
      assert e[0] == s[0] && e[1] == s[1] && e[2] == s[2] && e[3] == s[3];
      EncodeDecode(s[4..], Decode(s[4..]).value);
      EncodeDecodeLong(e, s[4..], Decode(s[4..]).value, b);
      assert s == e + s[4..];
    } else if |s| == 3 {
      EncodeDecodeTail2(s, b);
    } else if |s| == 2 {
      EncodeDecodeTail1(s, b);
    }
  }

  /** A quantum of characters decodes to bytes that encode back to it. */
  lemma QuantumCharsRoundTrip(e: string)
    requires |e| == 4
    requires Value(e[0]).Some? && Value(e[1]).Some? && Value(e[2]).Some? && Value(e[3]).Some?
    ensures var q := DecodeQuantum(Value(e[0]).value, Value(e[1]).value, Value(e[2]).value, Value(e[3]).value);
            EncodeQuantum(q[0], q[1], q[2]) == e
  {
    QuantumEncodes(Value(e[0]).value, Value(e[1]).value, Value(e[2]).value, Value(e[3]).value);
  }

  lemma EncodeDecodeLong(e: string, t: string, tail: seq<Byte>, b: seq<Byte>)
    requires |e| == 4
    requires Value(e[0]).Some? && Value(e[1]).Some? && Value(e[2]).Some? && Value(e[3]).Some?
    requires b == DecodeQuantum(Value(e[0]).value, Value(e[1]).value, Value(e[2]).value, Value(e[3]).value) + tail
    requires Encode(tail) == t
    ensures Encode(b) == e + t
  {
    var q := DecodeQuantum(Value(e[0]).value, Value(e[1]).value, Value(e[2]).value, Value(e[3]).value);
    QuantumCharsRoundTrip(e);
    EncodeCons(q, tail);
  }

  /** Encoding a full quantum in front of more bytes. */
  lemma EncodeCons(q: seq<Byte>, rest: seq<Byte>)
    requires |q| == 3
    ensures Encode(q + rest) == EncodeQuantum(q[0], q[1], q[2]) + Encode(rest)
  {
    var b := q + rest;
    assert b[0] == q[0] && b[1] == q[1] && b[2] == q[2] && b[3..] == rest;
  }

  lemma EncodeDecodeTail2(s: string, b: seq<Byte>)
    requires |s| == 3 && Decode(s) == Some(b)
    ensures Encode(b) == s
  {
    var c0, c1, c2 := Value(s[0]).value, Value(s[1]).value, Value(s[2]).value;
    Tail2Encodes(c0, c1, c2);
    assert s == [Char(c0), Char(c1), Char(c2)];
  }

  lemma EncodeDecodeTail1(s: string, b: seq<Byte>)
    requires |s| == 2 && Decode(s) == Some(b)
    ensures Encode(b) == s
  {
    var c0, c1 := Value(s[0]).value, Value(s[1]).value;
    Tail1Encodes(c0, c1);
    assert s == [Char(c0), Char(c1)];
  }

  /** Distinct byte strings have distinct encodings. */
  lemma EncodeInjective(a: seq<Byte>, b: seq<Byte>)
    ensures Encode(a) == Encode(b) <==> a == b
  {
    if Encode(a) == Encode(b) {
      DecodeEncode(a);
      DecodeEncode(b);
    }
  }

  /** Section 4 of RFC 4648: the bits of the final character that lie beyond
      the input are zero, two of them after a two-byte tail and four after a
      one-byte tail. */
  lemma {:induction false} FinalCharZeroFilled(b: seq<Byte>)
    requires |b| % 3 != 0
    ensures var s := Encode(b);
            && |s| > 0
            && Value(s[|s| - 1]).Some?
            && Value(s[|s| - 1]).value % (if |b| % 3 == 2 then 4 else 16) == 0
    decreases |b|
  {
    var s := Encode(b);
    if |b| >= 3 {
      FinalCharZeroFilled(b[3..]);
      assert s[|s| - 1] == Encode(b[3..])[|Encode(b[3..])| - 1];
    } else if |b| == 2 {
      CharIsUrlSafe((b[1] % 16) * 4);
    } else {
      CharIsUrlSafe((b[0] % 4) * 16);
    }
  }
}

=== FILE: config.dfy ===
/** config/config.go: the service's settings, read from the process
    environment with a default for every variable that is unset or empty.
    The environment is the one seen after `.env` has been loaded; reading
    the file is not modelled. Integers are parsed as Go's `strconv.Atoi`
    does on a 64-bit platform, whose error `getEnvInt` discards. */
module Config {
  import opened Wrappers

  const EnvDev: string := "DEV"
  const EnvProd: string := "PROD"

  /** Process environment: a variable missing from the map is unset. */
  type Environment = map<string, string>

  /** `os.Getenv`: an unset variable reads as the empty string. */
  function Getenv(e: Environment, key: string): string
  {
    if key in e then e[key] else ""
  }

  /** `getEnvWithDefault`: the variable's value unless it is unset or empty. */
  function GetEnvWithDefault(e: Environment, key: string, default: string): (r: string)
    ensures key in e && e[key] != "" ==> r == e[key]
    ensures key !in e || e[key] == "" ==> r == default
    ensures r == "" <==> default == "" && Getenv(e, key) == ""
  {
    var value := Getenv(e, key);
    if value != "" then value else default
  }

  /** `isValidEnv`: only the two named environments are valid, compared
      exactly (no case folding or trimming). */
  predicate IsValidEnv(env: string): (b: bool)
    ensures b <==> env in {EnvDev, EnvProd}
  {
    env == EnvDev || env == EnvProd
  }

  // ---------------------------------------------------------------------
  // strconv.Atoi
  // ---------------------------------------------------------------------

  const MaxUint64: int := 0xFFFF_FFFF_FFFF_FFFF
  const MaxInt64: int := 0x7FFF_FFFF_FFFF_FFFF
  const MinInt64: int := -0x8000_0000_0000_0000
  /** Smallest accumulator whose product with ten overflows 64 bits. */
  const Cutoff: int := MaxUint64 / 10 + 1

  predicate InInt64(v: int)
  {
    MinInt64 <= v <= MaxInt64
  }

  /** The two `*NumError` kinds `strconv` reports. */
  datatype NumError = ErrSyntax | ErrRange

  /** A parsed value with the error `strconv` returned alongside it. */
  datatype Parsed = Parsed(value: int, err: Option<NumError>)

  predicate IsDigit(c: char)
  {
    '0' <= c <= '9'
  }

  function DigitValue(c: char): nat
    requires IsDigit(c)
  {
    c as int - '0' as int
  }

  predicate AllDigits(s: string)
  {
    forall i :: 0 <= i < |s| ==> IsDigit(s[i])
  }

  function Pow10(k: nat): (p: nat)
    ensures p >= 1
  {
    if k == 0 then 1 else 10 * Pow10(k - 1)
  }

  /** The number a string of decimal digits denotes, with no bound. */
  function DigitsValue(s: string): nat
    requires AllDigits(s)
  {
    if s == [] then 0 else DigitValue(s[0]) * Pow10(|s| - 1) + DigitsValue(s[1..])
  }

  /** The digit loop of `ParseUint` in base 10 for a 64-bit result, from
      accumulator `n`: a non-digit is a syntax error with value 0; an
      accumulator that would overflow when multiplied by ten, or a step
      past the maximum, is a range error with the maximum, reported as soon
      as it happens, before later characters are looked at. */
  function ScanDigits(s: string, n: nat): (p: Parsed)
    requires n <= MaxUint64
    ensures 0 <= p.value <= MaxUint64
    ensures p.err == Some(ErrSyntax) ==> p.value == 0
    ensures p.err == Some(ErrRange) ==> p.value == MaxUint64
    decreases |s|
  {
    if s == [] then Parsed(n, None)
    else if !IsDigit(s[0]) then Parsed(0, Some(ErrSyntax))
    else if n >= Cutoff then Parsed(MaxUint64, Some(ErrRange))
    else
      var n1 := n * 10 + DigitValue(s[0]);
      if n1 > MaxUint64 then Parsed(MaxUint64, Some(ErrRange))
      else ScanDigits(s[1..], n1)
  }

  /** `strconv.ParseUint(s, 10, 64)`. */
  function ParseUint(s: string): (p: Parsed)
    ensures 0 <= p.value <= MaxUint64
    ensures p.err == Some(ErrSyntax) ==> p.value == 0
    ensures p.err == Some(ErrRange) ==> p.value == MaxUint64
  {
    if s == "" then Parsed(0, Some(ErrSyntax)) else ScanDigits(s, 0)
  }

  /** `n * x + d * x == (n + d) * x` with `x` a power of ten. */
  lemma MulShift(n: nat, d: nat, k: nat)
    ensures n * (10 * Pow10(k)) + d * Pow10(k) == (n * 10 + d) * Pow10(k)
  {
  }

  lemma MulGrows(n: nat, k: nat)
    ensures n <= n * Pow10(k)
  {
  }

  /** One digit of the loop: the digit moves from the string into the
      accumulator without changing the number denoted. */
  lemma ShiftDigit(s: string, n: nat)
    requires s != [] && AllDigits(s)
    ensures AllDigits(s[1..])
    ensures n * Pow10(|s|) + DigitsValue(s) == (n * 10 + DigitValue(s[0])) * Pow10(|s| - 1) + DigitsValue(s[1..])
  {
    forall i | 0 <= i < |s[1..]| ensures IsDigit(s[1..][i]) {
      assert s[1..][i] == s[i + 1];
    }
    MulShift(n, DigitValue(s[0]), |s| - 1);
  }

  /** What the digit loop returns without error is the number the string
      denotes, shifted in after the accumulator. */
  lemma {:induction false} ScanDigitsSound(s: string, n: nat)
    requires n <= MaxUint64
    requires ScanDigits(s, n).err.None?
    ensures AllDigits(s) && ScanDigits(s, n).value == n * Pow10(|s|) + DigitsValue(s)
    decreases |s|
  {
    if s != [] {
      var n1 := n * 10 + DigitValue(s[0]);
      ScanDigitsSound(s[1..], n1);
      assert AllDigits(s) by {
        forall i | 0 <= i < |s| ensures IsDigit(s[i]) {
          if i > 0 { assert s[i] == s[1..][i - 1]; }
        }
      }
      ShiftDigit(s, n);
    }
  }

  /** `strconv.Atoi` with a 64-bit `int` (it is `ParseInt(s, 10, 0)`; its
      fast path for short strings gives the same results). An optional
      sign, then decimal digits; a syntax error yields 0 and an
      out-of-range number the bound of its sign. */
  function Atoi(s: string): (p: Parsed)
    ensures InInt64(p.value)
    ensures p.err == Some(ErrSyntax) ==> p.value == 0
    ensures p.err == Some(ErrRange) ==> p.value == MaxInt64 || p.value == MinInt64
  {
    if s == "" then Parsed(0, Some(ErrSyntax))
    else
      var neg := s[0] == '-';
      var body := if s[0] == '+' || s[0] == '-' then s[1..] else s;
      var u := ParseUint(body);
      if u.err == Some(ErrSyntax) then Parsed(0, u.err)
      else if !neg && u.value > MaxInt64 then Parsed(MaxInt64, Some(ErrRange))
      else if neg && u.value > -MinInt64 then Parsed(MinInt64, Some(ErrRange))
      else Parsed(if neg then -u.value else u.value, None)
  }

  /** A well-formed decimal integer: an optional sign, then at least one
      digit. */
  predicate IsDecimal(s: string)
  {
    var body := if s != [] && (s[0] == '+' || s[0] == '-') then s[1..] else s;
    body != [] && AllDigits(body)
  }

  /** The number a well-formed decimal integer denotes, with no bound. */
  function DecimalValue(s: string): int
    requires IsDecimal(s)
  {
    if s[0] == '-' then -(DigitsValue(s[1..]) as int)
    else if s[0] == '+' then DigitsValue(s[1..])
    else DigitsValue(s)
  }

  /** The digit loop of a well-formed string whose value fits computes
      that value. */
  lemma {:induction false} ScanDigitsValue(s: string, n: nat)
    requires AllDigits(s)
    requires n * Pow10(|s|) + DigitsValue(s) <= MaxUint64
    ensures ScanDigits(s, n) == Parsed(n * Pow10(|s|) + DigitsValue(s), None)
    decreases |s|
  {
    if s != [] {
      var n1 := n * 10 + DigitValue(s[0]);
      ShiftDigit(s, n);
      MulGrows(n1, |s| - 1);
      ScanDigitsValue(s[1..], n1);
    }
  }

  /** A run of digits too large for 64 bits stops the loop with a range
      error before whatever follows it is looked at. */
  lemma {:induction false} ScanDigitsOverflow(s: string, t: string, n: nat)
    requires n <= MaxUint64
    requires AllDigits(s) && n * Pow10(|s|) + DigitsValue(s) > MaxUint64
    ensures ScanDigits(s + t, n) == Parsed(MaxUint64, Some(ErrRange))
    decreases |s|
  {
    assert s != [];
    var n1 := n * 10 + DigitValue(s[0]);
    assert (s + t)[0] == s[0];
    if n < Cutoff && n1 <= MaxUint64 {
      ShiftDigit(s, n);
      assert (s + t)[1..] == s[1..] + t;
      ScanDigitsOverflow(s[1..], t, n1);
    }
  }

  /** So a number too large for 64 bits followed by junk reads as the bound
      of its sign rather than as 0. */
  lemma AtoiOverflowBeforeJunk(digits: string, junk: string)
    requires AllDigits(digits) && DigitsValue(digits) > MaxUint64
    ensures Atoi(digits + junk) == Parsed(MaxInt64, Some(ErrRange))
    ensures Atoi("-" + digits + junk) == Parsed(MinInt64, Some(ErrRange))
  {
    ScanDigitsOverflow(digits, junk, 0);
    assert digits != [] && (digits + junk)[0] == digits[0];
    assert ("-" + digits + junk)[1..] == digits + junk;
  }

  /** `strconv.Atoi` accepts exactly the well-formed decimal integers in the
      64-bit range, and returns their value. */
  lemma AtoiAccepts(s: string)
    ensures Atoi(s).err.None? <==> IsDecimal(s) && InInt64(DecimalValue(s))
    ensures Atoi(s).err.None? ==> Atoi(s).value == DecimalValue(s)
  {
    if s != [] {
      var body := if s[0] == '+' || s[0] == '-' then s[1..] else s;
      assert IsDecimal(s) <==> body != [] && AllDigits(body);
      if body != [] && AllDigits(body) {
        assert DecimalValue(s) == if s[0] == '-' then -(DigitsValue(body) as int) else DigitsValue(body);
        if DigitsValue(body) <= MaxUint64 {
          ScanDigitsValue(body, 0);
          assert ParseUint(body) == Parsed(DigitsValue(body), None);
        } else {
          assert ParseUint(body).err.Some? by {
            if ScanDigits(body, 0).err.None? {
              ScanDigitsSound(body, 0);
            }
          }
          var u := ParseUint(body);
          assert u.err.value.ErrSyntax? || u.err.value.ErrRange?;
        }
      } else if body != [] {
        assert ParseUint(body).err.Some? by {
          if ScanDigits(body, 0).err.None? {
            ScanDigitsSound(body, 0);
          }
        }
        var u := ParseUint(body);
        assert u.err.value.ErrSyntax? || u.err.value.ErrRange?;
      }
    }
  }

  /** The decimal digits of a natural number, most significant first, with
      no leading zeros. */
  function DecimalDigits(v: nat): (s: string)
    ensures s != [] && AllDigits(s)
    decreases v
  {
    var c := ['0' + (v % 10) as char];
    if v < 10 then c else DecimalDigits(v / 10) + c
  }

  /** `strconv.Itoa`: a minus sign before the digits of a negative number. */
  function Itoa(v: int): string
  {
    if v < 0 then "-" + DecimalDigits(-v) else DecimalDigits(v)
  }

  lemma SnocShift(d: nat, k: nat, rest: nat, last: nat)
    ensures d * Pow10(k + 1) + rest * 10 + last == (d * Pow10(k) + rest) * 10 + last
  {
  }

  lemma {:induction false} DigitsValueSnoc(s: string, c: char)
    requires AllDigits(s) && IsDigit(c)
    ensures AllDigits(s + [c])
    ensures DigitsValue(s + [c]) == DigitsValue(s) * 10 + DigitValue(c)
    decreases |s|
  {
    assert AllDigits(s + [c]) by {
      forall i | 0 <= i < |s + [c]| ensures IsDigit((s + [c])[i]) {
        if i < |s| { assert (s + [c])[i] == s[i]; }
      }
    }
    if s != [] {
      assert (s + [c])[1..] == s[1..] + [c];
      assert AllDigits(s[1..]) by {
        forall i | 0 <= i < |s[1..]| ensures IsDigit(s[1..][i]) {
          assert s[1..][i] == s[i + 1];
        }
      }
      DigitsValueSnoc(s[1..], c);
      var d := DigitValue(s[0]);
      assert DigitsValue(s + [c]) == d * Pow10(|s|) + DigitsValue(s[1..] + [c]);
      SnocShift(d, |s| - 1, DigitsValue(s[1..]), DigitValue(c));
    }
  }

  /** The digits `DecimalDigits` writes denote the number. */
  lemma {:induction false} DecimalDigitsValue(v: nat)
    ensures DigitsValue(DecimalDigits(v)) == v
    decreases v
  {
    var c := '0' + (v % 10) as char;
    if v >= 10 {
      DecimalDigitsValue(v / 10);
      DigitsValueSnoc(DecimalDigits(v / 10), c);
    }
  }

  /** `Atoi(Itoa(v))` gives back every 64-bit integer without error. */
  lemma AtoiItoa(v: int)
    requires InInt64(v)
    ensures Atoi(Itoa(v)) == Parsed(v, None)
  {
    var s := Itoa(v);
    if v < 0 {
      DecimalDigitsValue(-v);
      assert s[1..] == DecimalDigits(-v);
    } else {
      DecimalDigitsValue(v);
    }
    AtoiAccepts(s);
  }

  /** `getEnvInt`: the variable parsed by `strconv.Atoi` with the error
      dropped, or the default when it is unset or empty. A set value is a
      64-bit integer: the number it spells when it is a well-formed decimal
      in range, and 0 when it does not start like a number. */
  function GetEnvInt(e: Environment, key: string, default: int): (r: int)
    ensures Getenv(e, key) == "" ==> r == default
    ensures Getenv(e, key) != "" ==> InInt64(r)
    ensures var v := Getenv(e, key);
            IsDecimal(v) && InInt64(DecimalValue(v)) ==> r == DecimalValue(v)
    ensures var v := Getenv(e, key);
            var body := if v != [] && (v[0] == '+' || v[0] == '-') then v[1..] else v;
            v != "" && (body == [] || !IsDigit(body[0])) ==> r == 0
  {
    var value := Getenv(e, key);
    AtoiAccepts(value);
    if value != "" then Atoi(value).value else default
  }

  /** The `Config` struct. */
  datatype Settings = Settings(
    dbType: string,
    dbPath: string,
    env: string,
    dbHost: string,
    dbPort: int,
    dbUser: string,
    dbPassword: string,
    dbName: string,
    maxDbConns: int,
    idleDbConns: int,
    maxAttemptsCreateKey: int)

  /** `LoadConfig` after `.env` is loaded: `ENV` falls back to `PROD` when
      it is unset, empty or anything but `DEV`/`PROD`. */
  function LoadConfig(e: Environment): (c: Settings)
    ensures IsValidEnv(c.env)
    ensures c.env == (if IsValidEnv(Getenv(e, "ENV")) then Getenv(e, "ENV") else EnvProd)
    ensures c.dbType != "" && c.dbPath != "" && c.dbHost != ""
    ensures c.dbUser != "" && c.dbPassword != "" && c.dbName != ""
    ensures c.dbType == (if Getenv(e, "DB_TYPE") == "" then "sqlite" else Getenv(e, "DB_TYPE"))
    ensures c.dbPath == (if Getenv(e, "DB_PATH") == "" then "file:urls.db?_fk=1" else Getenv(e, "DB_PATH"))
    ensures c.dbHost == (if Getenv(e, "DB_HOST") == "" then "localhost" else Getenv(e, "DB_HOST"))
    ensures c.dbUser == (if Getenv(e, "DB_USER") == "" then "postgres" else Getenv(e, "DB_USER"))
    ensures c.dbPassword == (if Getenv(e, "DB_PASSWORD") == "" then "postgres" else Getenv(e, "DB_PASSWORD"))
    ensures c.dbName == (if Getenv(e, "DB_NAME") == "" then "shortener" else Getenv(e, "DB_NAME"))
    ensures Getenv(e, "DB_PORT") == "" ==> c.dbPort == 5432
    ensures Getenv(e, "MAX_DB_CONNS") == "" ==> c.maxDbConns == 20
    ensures Getenv(e, "IDLE_DB_CONNS") == "" ==> c.idleDbConns == 10
    ensures Getenv(e, "MAX_ATTEMPTS_CREATE_KEY") == "" ==> c.maxAttemptsCreateKey == 5
    ensures InInt64(c.dbPort) && InInt64(c.maxDbConns) && InInt64(c.idleDbConns) && InInt64(c.maxAttemptsCreateKey)
  {
    var env := GetEnvWithDefault(e, "ENV", EnvProd);
    var env := if IsValidEnv(env) then env else EnvProd;
    Settings(
      dbType := GetEnvWithDefault(e, "DB_TYPE", "sqlite"),
      dbPath := GetEnvWithDefault(e, "DB_PATH", "file:urls.db?_fk=1"),
      env := env,
      dbHost := GetEnvWithDefault(e, "DB_HOST", "localhost"),
      dbPort := GetEnvInt(e, "DB_PORT", 5432),
      dbUser := GetEnvWithDefault(e, "DB_USER", "postgres"),
      dbPassword := GetEnvWithDefault(e, "DB_PASSWORD", "postgres"),
      dbName := GetEnvWithDefault(e, "DB_NAME", "shortener"),
      maxDbConns := GetEnvInt(e, "MAX_DB_CONNS", 20),
      idleDbConns := GetEnvInt(e, "IDLE_DB_CONNS", 10),
      maxAttemptsCreateKey := GetEnvInt(e, "MAX_ATTEMPTS_CREATE_KEY", 5))
  }

  /** An empty environment gives every default. */
  lemma DefaultsWhenUnset()
    ensures LoadConfig(map[]) == Settings("sqlite", "file:urls.db?_fk=1", EnvProd, "localhost", 5432,
                                          "postgres", "postgres", "shortener", 20, 10, 5)
  {
  }

  /** A set, well-formed value within the 64-bit range overrides the
      default, whatever its spelling (`5`, `+5`, `005`). */
  lemma MaxAttemptsFromEnvironment(e: Environment)
    requires var v := Getenv(e, "MAX_ATTEMPTS_CREATE_KEY");
             IsDecimal(v) && InInt64(DecimalValue(v))
    ensures var v := Getenv(e, "MAX_ATTEMPTS_CREATE_KEY");
            LoadConfig(e).maxAttemptsCreateKey == DecimalValue(v)
  {
  }

  /** A value that does not start like a number does not fall back to the
      default: the dropped syntax error leaves 0, so the key-allocation
      loop runs no attempt. */
  lemma UnparsableMaxAttemptsIsZero(e: Environment)
    requires var v := Getenv(e, "MAX_ATTEMPTS_CREATE_KEY");
             var body := if v != [] && (v[0] == '+' || v[0] == '-') then v[1..] else v;
             v != "" && (body == [] || !IsDigit(body[0]))
    ensures LoadConfig(e).maxAttemptsCreateKey == 0
  {
  }
}

=== FILE: repo.dfy ===
/** The `urls` table and the three queries of
    internal/repositories/url_repo.go. The table keeps its rows in rowid
    order; the `UNIQUE` constraints on `original_url` and `short_key` are the
    invariant `Valid`. A driver or I/O failure is not a property of the table:
    each query takes it as a `fault` parameter, `Some(message)` meaning the
    database call itself failed. */
module Repo {
  import opened Wrappers

  datatype Column = OriginalUrl | ShortKey

  /** `sql.ErrNoRows`, a violated `UNIQUE` constraint, or any other failure. */
  datatype DbError = NoRows | UniqueViolation(column: Column) | Other(message: string)

  datatype Row = Row(originalUrl: string, shortKey: string)

  datatype Table = Table(rows: seq<Row>)

  /** Go's `(string, error)` result of a lookup. */
  datatype Lookup = Lookup(value: string, err: Option<DbError>)

  /** The table after an `INSERT` and the error it returned. */
  datatype Exec = Exec(after: Table, err: Option<DbError>)

  /** Both columns are unique: no two rows share an original URL or a key. */
  ghost predicate Valid(t: Table)
  {
    forall i, j :: 0 <= i < j < |t.rows| ==>
      t.rows[i].originalUrl != t.rows[j].originalUrl && t.rows[i].shortKey != t.rows[j].shortKey
  }

  ghost predicate HasUrl(t: Table, url: string)
  {
    exists row :: row in t.rows && row.originalUrl == url
  }

  ghost predicate HasKey(t: Table, key: string)
  {
    exists row :: row in t.rows && row.shortKey == key
  }

  /** Inserting this pair would violate one of the two constraints. */
  ghost predicate Collides(t: Table, url: string, key: string)
  {
    HasUrl(t, url) || HasKey(t, key)
  }

  /** In a valid table a row is determined by either of its columns. */
  lemma RowsAgree(t: Table, a: Row, b: Row)
    requires Valid(t) && a in t.rows && b in t.rows
    requires a.originalUrl == b.originalUrl || a.shortKey == b.shortKey
    ensures a == b
  {
    var i :| 0 <= i < |t.rows| && t.rows[i] == a;
    var j :| 0 <= j < |t.rows| && t.rows[j] == b;
  }

  /** `WHERE original_url = ?` */
  function FindByUrl(rows: seq<Row>, url: string): (r: Option<Row>)
    ensures r.Some? ==> r.value in rows && r.value.originalUrl == url
    ensures r.None? ==> forall row :: row in rows ==> row.originalUrl != url
  {
    if |rows| == 0 then None
    else if rows[0].originalUrl == url then Some(rows[0])
    else FindByUrl(rows[1..], url)
  }

  /** `WHERE short_key = ?` */
  function FindByKey(rows: seq<Row>, key: string): (r: Option<Row>)
    ensures r.Some? ==> r.value in rows && r.value.shortKey == key
    ensures r.None? ==> forall row :: row in rows ==> row.shortKey != key
  {
    if |rows| == 0 then None
    else if rows[0].shortKey == key then Some(rows[0])
    else FindByKey(rows[1..], key)
  }

  /** `QueryRow(...).Scan(&v)` for the key of a URL: the scanned variable
      keeps its zero value `""` whenever `Scan` reports an error. */
  function SelectKeyByUrl(t: Table, url: string, fault: Option<string>): (q: Lookup)
    ensures q.err.None? <==> fault.None? && HasUrl(t, url)
    ensures q.err.None? ==> Row(url, q.value) in t.rows
    ensures q.err.Some? ==> q.value == ""
    ensures fault.None? && !HasUrl(t, url) ==> q.err == Some(NoRows)
  {
    if fault.Some? then Lookup("", Some(Other(fault.value)))
    else match FindByUrl(t.rows, url)
      case Some(row) => Lookup(row.shortKey, None)
      case None => Lookup("", Some(NoRows))
  }

  /** `QueryRow(...).Scan(&v)` for the original URL of a key. */
  function SelectUrlByKey(t: Table, key: string, fault: Option<string>): (q: Lookup)
    ensures q.err.None? <==> fault.None? && HasKey(t, key)
    ensures q.err.None? ==> Row(q.value, key) in t.rows
    ensures q.err.Some? ==> q.value == ""
    ensures fault.None? && !HasKey(t, key) ==> q.err == Some(NoRows)
  {
    if fault.Some? then Lookup("", Some(Other(fault.value)))
    else match FindByKey(t.rows, key)
      case Some(row) => Lookup(row.originalUrl, None)
      case None => Lookup("", Some(NoRows))
  }

  /** The error test of `GetShortKeyByURL`: `err != nil && err != sql.ErrNoRows`. */
  predicate IsLookupFailure(err: Option<DbError>)
  {
    err.Some? && err != Some(NoRows)
  }

  /** `GetShortKeyByURL`: "not found" is `("", nil)`, not an error. */
  function GetShortKeyByURL(t: Table, url: string, fault: Option<string>): (r: Lookup)
    ensures fault.Some? ==> r == Lookup("", Some(Other(fault.value)))
    ensures fault.None? ==> r.err.None?
    ensures fault.None? && HasUrl(t, url) ==> Row(url, r.value) in t.rows
    ensures fault.None? && !HasUrl(t, url) ==> r.value == ""
  {
    var q := SelectKeyByUrl(t, url, fault);
    if IsLookupFailure(q.err) then Lookup("", q.err) else Lookup(q.value, None)
  }

  /** In a valid table the lookup by URL names the one row holding the URL. */
  lemma GetShortKeyByURLFindsRow(t: Table, url: string, key: string)
    requires Valid(t) && Row(url, key) in t.rows
    ensures GetShortKeyByURL(t, url, None) == Lookup(key, None)
  {
    var r := GetShortKeyByURL(t, url, None);
    RowsAgree(t, Row(url, r.value), Row(url, key));
  }

  /** The error test of `GetOriginalURL` as written:
      `err != nil || err != sql.ErrNoRows`. `sql.ErrNoRows` is itself a
      non-nil error, so no value makes both disjuncts false: the test holds
      for nil, for `sql.ErrNoRows` and for every other error. */
  predicate ResolveGuard(err: Option<DbError>): (fails: bool)
    ensures fails
  {
    err.Some? || err != Some(NoRows)
  }

  /** `GetOriginalURL` as written. Every path goes through the early return
      of the guard, so the result is `""` with whatever error `Scan` gave: a
      found row yields `("", nil)`, a missing one `("", sql.ErrNoRows)`. The
      original URL is never returned. */
  function GetOriginalURL(t: Table, key: string, fault: Option<string>): (r: Lookup)
    ensures r.value == ""
    ensures r.err.None? <==> fault.None? && HasKey(t, key)
    ensures fault.None? && !HasKey(t, key) ==> r.err == Some(NoRows)
    ensures fault.Some? ==> r.err == Some(Other(fault.value))
  {
    var q := SelectUrlByKey(t, key, fault);
    if ResolveGuard(q.err) then Lookup("", q.err) else Lookup(q.value, None)
  }

  /** `GetOriginalURL` with the guard of `GetShortKeyByURL`, the test the
      method evidently means: found is `(url, nil)`, not found `("", nil)`. */
  function GetOriginalURLFixed(t: Table, key: string, fault: Option<string>): (r: Lookup)
    ensures fault.Some? ==> r == Lookup("", Some(Other(fault.value)))
    ensures fault.None? ==> r.err.None?
    ensures fault.None? && HasKey(t, key) ==> Row(r.value, key) in t.rows
    ensures fault.None? && !HasKey(t, key) ==> r.value == ""
  {
    var q := SelectUrlByKey(t, key, fault);
    if IsLookupFailure(q.err) then Lookup("", q.err) else Lookup(q.value, None)
  }

  /** In a valid table the corrected lookup by key returns the row's URL. */
  lemma GetOriginalURLFixedFindsRow(t: Table, url: string, key: string)
    requires Valid(t) && Row(url, key) in t.rows
    ensures GetOriginalURLFixed(t, key, None) == Lookup(url, None)
  {
    var r := GetOriginalURLFixed(t, key, None);
    RowsAgree(t, Row(r.value, key), Row(url, key));
  }

  /** A stored mapping is invisible through `GetOriginalURL` as written,
      although the corrected lookup finds it. */
  lemma GetOriginalURLLosesStoredUrl()
    ensures var t := Table([Row("https://example.com/a", "K1")]);
            && GetOriginalURL(t, "K1", None) == Lookup("", None)
            && GetOriginalURLFixed(t, "K1", None) == Lookup("https://example.com/a", None)
  {
    var t := Table([Row("https://example.com/a", "K1")]);
    GetOriginalURLFixedFindsRow(t, "https://example.com/a", "K1");
  }

  /** `CreateShortURL`: one `INSERT`. The `original_url` constraint is
      reported when both columns collide. */
  function CreateShortURL(t: Table, url: string, key: string, fault: Option<string>): (x: Exec)
    ensures x.err.None? <==> fault.None? && !Collides(t, url, key)
    ensures x.err.None? ==> x.after.rows == t.rows + [Row(url, key)]
    ensures x.err.Some? ==> x.after == t
    ensures fault.Some? ==> x.err == Some(Other(fault.value))
    ensures fault.None? && HasUrl(t, url) ==> x.err == Some(UniqueViolation(OriginalUrl))
    ensures fault.None? && !HasUrl(t, url) && HasKey(t, key) ==> x.err == Some(UniqueViolation(ShortKey))
    ensures Valid(t) ==> Valid(x.after)
  {
    if fault.Some? then Exec(t, Some(Other(fault.value)))
    else if FindByUrl(t.rows, url).Some? then Exec(t, Some(UniqueViolation(OriginalUrl)))
    else if FindByKey(t.rows, key).Some? then Exec(t, Some(UniqueViolation(ShortKey)))
    else
      var after := Table(t.rows + [Row(url, key)]);
      assert forall i :: 0 <= i < |t.rows| ==> after.rows[i] == t.rows[i] && after.rows[i] in t.rows;
      Exec(after, None)
  }

  /** After a successful insert both lookups see the new pair. */
  lemma InsertThenLookup(t: Table, url: string, key: string)
    requires Valid(t)
    requires CreateShortURL(t, url, key, None).err.None?
    ensures var after := CreateShortURL(t, url, key, None).after;
            && GetShortKeyByURL(after, url, None) == Lookup(key, None)
            && GetOriginalURLFixed(after, key, None) == Lookup(url, None)
  {
    var after := CreateShortURL(t, url, key, None).after;
    assert after.rows[|t.rows|] == Row(url, key);
    GetShortKeyByURLFindsRow(after, url, key);
    GetOriginalURLFixedFindsRow(after, url, key);
  }

  /** Inserting a second key for a stored URL always fails on the
      `original_url` constraint. */
  lemma SecondInsertForUrlFails(t: Table, url: string, key: string, key2: string)
    requires CreateShortURL(t, url, key, None).err.None?
    ensures CreateShortURL(CreateShortURL(t, url, key, None).after, url, key2, None).err
         == Some(UniqueViolation(OriginalUrl))
  {
    var after := CreateShortURL(t, url, key, None).after;
    assert after.rows[|t.rows|] == Row(url, key);
  }
}

=== FILE: service.dfy ===
/** `URLService` of internal/services/url_service.go over the repository
    model. A call sees the table twice: `seen` when it looks the URL up and
    `store` when it inserts. Another writer may add rows in between (rows are
    never updated or deleted, so `seen` is a prefix of `store`); that is the
    only form of concurrency modelled. The random generator is the oracle
    `digests`, one digest per attempt, and `faults` says which inserts fail in
    the driver. */
module Service {
  import opened Wrappers
  import opened Repo
  import opened Shortener
  import opened Allocation

  /** Iterations of Go's `for range n`: none at all when `n <= 0`. */
  function RangeCount(n: int): nat
  {
    if n > 0 then n else 0
  }

  /** `URLService.CreateShortURL` as written. */
  method CreateShortURL(seen: Table, store: Table, url: string, lookupFault: Option<string>,
                        maxAttemptsCreateKey: int, digests: seq<Digest>, faults: seq<Option<string>>)
    returns (r: Result<string, ServiceError>, after: Table, attempts: nat)
    requires Valid(store) && seen.rows <= store.rows
    requires maxAttemptsCreateKey <= |digests| && maxAttemptsCreateKey <= |faults|
    // Fast path: a key found without error is returned and nothing is inserted.
    ensures TakesFastPath(GetShortKeyByURL(seen, url, lookupFault)) ==>
      r == Success(GetShortKeyByURL(seen, url, lookupFault).value) && after == store && attempts == 0
    // Otherwise the outcome is that of the bounded retry loop.
    ensures !TakesFastPath(GetShortKeyByURL(seen, url, lookupFault)) ==>
      LoopSpec(store, url, RangeCount(maxAttemptsCreateKey), digests, faults, attempts, r, after)
    ensures attempts <= RangeCount(maxAttemptsCreateKey)
    ensures maxAttemptsCreateKey <= 0 && !TakesFastPath(GetShortKeyByURL(seen, url, lookupFault)) ==>
      r == Failure(Exhausted) && attempts == 0
    // A lookup failure is swallowed: a surfaced store error always comes from
    // the last insert, and is never a uniqueness failure.
    ensures r.Failure? && r.error.StoreError? ==>
      1 <= attempts && faults[attempts - 1] == Some(r.error.cause.message)
    // The lost race: the URL was stored after the lookup (or the lookup failed)
    // and every insert is then refused, so the call is exhausted.
    ensures !TakesFastPath(GetShortKeyByURL(seen, url, lookupFault)) && HasUrl(store, url)
            && (forall j :: 0 <= j < RangeCount(maxAttemptsCreateKey) ==> faults[j].None?) ==>
      r == Failure(Exhausted) && attempts == RangeCount(maxAttemptsCreateKey)
    ensures Valid(after)
    ensures r.Failure? ==> after == store
    // A fault-free repeat of the call takes the fast path with the same key,
    // and the key resolves to the URL.
    ensures r.Success? ==> r.value != "" && GetShortKeyByURL(after, url, None) == Lookup(r.value, None)
    ensures r.Success? ==> GetOriginalURLFixed(after, r.value, None) == Lookup(url, None)
  {
    var existing := GetShortKeyByURL(seen, url, lookupFault);
    if existing.err.None? && existing.value != "" {
      FastPathStillStored(seen, store, url, lookupFault);
      return Success(existing.value), store, 0;
    }
    var n := RangeCount(maxAttemptsCreateKey);
    attempts := 0;
    while attempts < n
      invariant attempts <= n
      invariant forall j :: 0 <= j < attempts ==> Retried(store, url, digests[j], faults[j])
    {
      var shortKey := GenerateShortKey(digests[attempts]);
      var x := Repo.CreateShortURL(store, url, shortKey, faults[attempts]);
      attempts := attempts + 1;
      if x.err.None? {
        r, after := Success(shortKey), x.after;
        LoopSpecOutcome(store, url, n, digests, faults, attempts, r, after);
        return;
      }
      if x.err.value.UniqueViolation? {
        continue;
      }
      r, after := Failure(StoreError(x.err.value)), store;
      LoopSpecOutcome(store, url, n, digests, faults, attempts, r, after);
      return;
    }
    r, after := Failure(Exhausted), store;
    LoopSpecOutcome(store, url, n, digests, faults, attempts, r, after);
    if HasUrl(store, url) && (forall j :: 0 <= j < n ==> faults[j].None?) {
      LostRaceExhausts(store, url, n, digests, faults, attempts, r, after);
    }
  }

  /** `URLService.GetOriginalURL`: the repository's answer, unchanged, so it
      inherits the always-true guard of `SQLiteRepo.GetOriginalURL`. */
  function GetOriginalURL(t: Table, shortKey: string, fault: Option<string>): (r: Lookup)
    ensures r.value == ""
    ensures r.err.None? <==> fault.None? && HasKey(t, shortKey)
    ensures fault.None? && !HasKey(t, shortKey) ==> r.err == Some(NoRows)
    ensures fault.Some? ==> r.err == Some(Other(fault.value))
  {
    Repo.GetOriginalURL(t, shortKey, fault)
  }

  /** One attempt of the race-safe loop: either it decides the call or the
      loop goes on with a fresh candidate. */
  datatype Step = Retry | Done(result: Result<string, ServiceError>, after: Table)

  /** Insert the candidate; on an `original_url` conflict look the URL up
      again and return the key stored for it. */
  function RaceSafeAttempt(store: Table, url: string, digest: Digest, fault: Option<string>,
                           requeryFault: Option<string>): (s: Step)
    requires Valid(store)
    ensures s.Retry? ==> Retried(store, url, digest, fault)
    ensures s.Retry? && HasUrl(store, url) ==>
      requeryFault.None? && GetShortKeyByURL(store, url, None).value == ""
    ensures s.Done? && s.result.Failure? ==>
      s.after == store && s.result.error.StoreError? && s.result.error.cause.Other?
    ensures s.Done? && s.result.Success? ==>
      && Valid(s.after)
      && s.result.value != ""
      && GetShortKeyByURL(s.after, url, None) == Lookup(s.result.value, None)
      && GetOriginalURLFixed(s.after, s.result.value, None) == Lookup(url, None)
    ensures HasUrl(store, url) && fault.None? && requeryFault.None?
            && GetShortKeyByURL(store, url, None).value != "" ==>
      s == Done(Success(GetShortKeyByURL(store, url, None).value), store)
  {
    var key := GenerateShortKey(digest);
    var x := Repo.CreateShortURL(store, url, key, fault);
    if x.err.None? then
      InsertThenLookup(store, url, key);
      Done(Success(key), x.after)
    else if x.err.value == UniqueViolation(OriginalUrl) then
      var winner := GetShortKeyByURL(store, url, requeryFault);
      if winner.err.Some? then Done(Failure(StoreError(winner.err.value)), store)
      else if winner.value != "" then
        GetShortKeyByURLFindsRow(store, url, winner.value);
        GetOriginalURLFixedFindsRow(store, url, winner.value);
        Done(Success(winner.value), store)
      else Retry
    else if x.err.value.UniqueViolation? then Retry
    else Done(Failure(StoreError(x.err.value)), store)
  }

  /** `CreateShortURL` with the recovery the race calls for: when an insert
      is refused on the `original_url` constraint, look the URL up again and
      return the key the winning writer stored. `requeryFaults[j]` says
      whether that second lookup fails in attempt `j`. */
  method CreateShortURLRaceSafe(seen: Table, store: Table, url: string, lookupFault: Option<string>,
                                maxAttemptsCreateKey: int, digests: seq<Digest>, faults: seq<Option<string>>,
                                requeryFaults: seq<Option<string>>)
    returns (r: Result<string, ServiceError>, after: Table, attempts: nat)
    requires Valid(store) && seen.rows <= store.rows
    requires maxAttemptsCreateKey <= |digests| && maxAttemptsCreateKey <= |faults|
    requires maxAttemptsCreateKey <= |requeryFaults|
    ensures TakesFastPath(GetShortKeyByURL(seen, url, lookupFault)) ==>
      r == Success(GetShortKeyByURL(seen, url, lookupFault).value) && after == store && attempts == 0
    ensures attempts <= RangeCount(maxAttemptsCreateKey)
    // The winner's key: a stored URL is answered with its stored key on the
    // first attempt, without a second row and without exhausting.
    ensures !TakesFastPath(GetShortKeyByURL(seen, url, lookupFault)) && HasUrl(store, url)
            && 1 <= maxAttemptsCreateKey && faults[0].None? && requeryFaults[0].None?
            && GetShortKeyByURL(store, url, None).value != "" ==>
      r == Success(GetShortKeyByURL(store, url, None).value) && after == store && attempts == 1
    ensures r == Failure(Exhausted) ==>
      attempts == RangeCount(maxAttemptsCreateKey)
      && forall j :: 0 <= j < attempts ==> Retried(store, url, digests[j], faults[j])
    ensures r.Failure? && r.error.StoreError? ==> r.error.cause.Other? && 1 <= attempts
    ensures Valid(after)
    ensures r.Failure? ==> after == store
    ensures r.Success? ==> r.value != "" && GetShortKeyByURL(after, url, None) == Lookup(r.value, None)
    ensures r.Success? ==> GetOriginalURLFixed(after, r.value, None) == Lookup(url, None)
  {
    var existing := GetShortKeyByURL(seen, url, lookupFault);
    if existing.err.None? && existing.value != "" {
      FastPathStillStored(seen, store, url, lookupFault);
      return Success(existing.value), store, 0;
    }
    var n := RangeCount(maxAttemptsCreateKey);
    attempts := 0;
    while attempts < n
      invariant attempts <= n
      invariant forall j :: 0 <= j < attempts ==> Retried(store, url, digests[j], faults[j])
      invariant attempts > 0 && HasUrl(store, url) ==>
        requeryFaults[0].None? && GetShortKeyByURL(store, url, None).value == ""
    {
      var step := RaceSafeAttempt(store, url, digests[attempts], faults[attempts], requeryFaults[attempts]);
      attempts := attempts + 1;
      if step.Done? {
        return step.result, step.after, attempts;
      }
    }
    r, after := Failure(Exhausted), store;
  }
}

=== FILE: shortener.dfy ===
/** The short-key generator of pkg/utils/shortener.go (and its copy in
    main.go): a SHA-256 digest of a fresh UUID, truncated to eight bytes and
    written in unpadded URL-safe base64. The UUID and the hash are not
    modelled; the digest is an arbitrary 32-byte input. */
module Shortener {
  import opened Wrappers
  import opened Base64Url

  /** Size of a SHA-256 digest in bytes. */
  const DigestSize: nat := 32
  /** Bytes of the digest that reach the key. */
  const KeyBytes: nat := 8
  /** Characters in every key: two full quanta and a two-byte tail. */
  const KeyLength: nat := 11

  type Digest = d: seq<Byte> | |d| == DigestSize witness seq(32, _ => 0)

  function GenerateShortKey(digest: Digest): (key: string)
    ensures |key| == KeyLength
    ensures forall i :: 0 <= i < |key| ==> IsUrlSafe(key[i])
  {
    Encode(digest[..KeyBytes])
  }

  /** Decoding a key recovers the eight digest bytes it was made from. */
  lemma KeyDecodes(digest: Digest)
    ensures Decode(GenerateShortKey(digest)) == Some(digest[..KeyBytes])
  {
    DecodeEncode(digest[..KeyBytes]);
  }

  /** Bytes 8..31 of the digest never reach the key. */
  lemma KeyIgnoresDigestTail(d1: Digest, d2: Digest)
    requires d1[..KeyBytes] == d2[..KeyBytes]
    ensures GenerateShortKey(d1) == GenerateShortKey(d2)
  {
  }

  /** Two digests give the same key exactly when their first eight bytes
      agree. */
  lemma KeyInjectiveOnPrefix(d1: Digest, d2: Digest)
    ensures GenerateShortKey(d1) == GenerateShortKey(d2) <==> d1[..KeyBytes] == d2[..KeyBytes]
  {
    EncodeInjective(d1[..KeyBytes], d2[..KeyBytes]);
  }

  /** No padding and none of the characters of the standard alphabet that are
      unsafe in a URL path. */
  lemma KeyHasNoPaddingOrStandardSymbols(d: Digest)
    ensures '=' !in GenerateShortKey(d)
    ensures '+' !in GenerateShortKey(d)
    ensures '/' !in GenerateShortKey(d)
  {
    var key := GenerateShortKey(d);
    forall i | 0 <= i < |key|
      ensures key[i] != '=' && key[i] != '+' && key[i] != '/'
    {
      assert IsUrlSafe(key[i]);
    }
  }

  /** The eleventh character carries only four data bits: the two low bits
      of its 6-bit value are zero. */
  lemma KeyLastCharZeroFilled(d: Digest)
    ensures Value(GenerateShortKey(d)[KeyLength - 1]).Some?
    ensures Value(GenerateShortKey(d)[KeyLength - 1]).value % 4 == 0
  {
    FinalCharZeroFilled(d[..KeyBytes]);
  }
}

=== FILE: wrappers.dfy ===
/** Failure-carrying datatypes shared by the other modules. */
module Wrappers {

  /** A value that may be absent. */
  datatype Option<+T> = None | Some(value: T)

  /** Either a value or an error: the model of Go's `(T, error)` pair when the
      value is meaningless whenever the error is non-nil. */
  datatype Result<+R, +E> = Success(value: R) | Failure(error: E)
}
